=== FILE: README.md ===
# EventStore core, modelled in Dafny

This project models six pieces of the EventStore server and proves properties about them:

- **Stream range reads** (`StreamReadIndex`). A stream keeps only its last `$maxCount` events.
  - A forward or backward read of a range returns the retained events in it.
  - The read also reports the next event number to ask for, the last event number and whether the end of the stream was reached.
  - Following the next event number page by page yields exactly the retained events.
- **Read-all backward paging** (`ReadAll`). Slices are taken backward from a position in the transaction log. Following each slice's position until an empty slice returns the whole log, newest first.
- **The transaction-file chunk** (`TfChunk`). A chunk is appended to, flushed, completed with a footer and hash, reopened from its file, cached and uncached.
  - A record appended at the returned position reads back from there.
  - Completion, reopening, caching and uncaching never change what a read returns.
- **Custom codecs** (`Codecs`, with case-insensitive ASCII text in `AsciiText`). A codec is built from a `type/subtype` content type. It parses requests of that content type and serves Accept ranges that match it.
- **HTTP dispatch** (`HttpService`).
  - Controller actions are registered, and the first registration wins.
  - Each request is answered in a fixed order: 404, then OPTIONS, then 405.
  - Next comes the request codec: 415 when none parses the Content-Type, 500 when several do.
  - Then the response codec: 500 when selection throws, 415 when none is available. Otherwise the request is dispatched to the controller.
  - The response codec comes from `?format=`, or else from the Accept header by priority, or else the action's default codec.
  - Requests left pending for five seconds are timed out with 408.
- **The request/response session dispatcher** (`SessionDispatcher`). Correlation ids map to Begin/Part/End callbacks.
  - Publishing registers an id.
  - Begin and Part responses keep the session open; End closes it.
  - Unknown ids are ignored.
- **The create-stream request manager** (`CreateStreamManager`).
  - A manager accepts one request.
  - For it, the manager emits a stream-creation prepare and a prepare-phase timer.
  - Later it answers the client through the request's envelope.

`Wrappers` holds the `Option` and `Result` types used for absent values and error paths. Every operation is a pure function over immutable datatypes, except the paging loop in `ReadAll.CollectAllBackward`, which is a method.

## Model

| member | source | states |
|---|---|---|
| StreamReadIndex.RetainedFloor | src/EventStore/EventStore.Core.Tests/Services/Storage/MaxAgeMaxCount/ReadRange_And_NextEventNumber/when_reading_stream_with_max_count.cs:20-28 | with `$maxCount` m and last event n, the oldest retained event is n - m + 1, so exactly m events remain once the stream is longer than m; a shorter stream, or one without `$maxCount`, keeps every event from 0 |
| StreamReadIndex.ReadForward | src/EventStore/EventStore.Core.Tests/Services/Storage/MaxAgeMaxCount/ReadRange_And_NextEventNumber/when_reading_stream_with_max_count.cs:30-115 | an unknown stream reads NoStream, a deleted one StreamDeleted; otherwise an ascending run holding exactly the retained events in [start, start + count); end of stream iff start + count > last; next is one past the last returned event, or the first retained event when the whole range is expired |
| StreamReadIndex.ReadBackward | src/EventStore/EventStore.Core.Tests/Services/Storage/MaxAgeMaxCount/ReadRange_And_NextEventNumber/when_reading_stream_with_max_count.cs:118-201 | a descending run holding exactly the retained events in (from - count, from]; end of stream iff the range reaches below the retained floor, and then next = -1; otherwise next is one below the lowest returned event, or the last event when reading from beyond the end |
| StreamReadIndex.PageForwardCollectsRetained | src/EventStore/EventStore.Core.Tests/Services/Storage/MaxAgeMaxCount/ReadRange_And_NextEventNumber/when_reading_stream_with_max_count.cs:59-100 | following nextEventNumber forward from any start until end of stream yields every retained event from the start on, once, ascending |
| StreamReadIndex.PageBackwardCollectsRetained | src/EventStore/EventStore.Core.Tests/Services/Storage/MaxAgeMaxCount/ReadRange_And_NextEventNumber/when_reading_stream_with_max_count.cs:118-176 | following nextEventNumber backward until end of stream yields every retained event at or below the start, once, descending |
| StreamReadIndex.FixtureAlwaysReportsLast | src/EventStore/EventStore.Core.Tests/Services/Storage/MaxAgeMaxCount/ReadRange_And_NextEventNumber/when_reading_stream_with_max_count.cs:30-201 | every read of the fixture stream succeeds and reports 5 as the last event number |
| StreamReadIndex.ForwardScenarios | src/EventStore/EventStore.Core.Tests/Services/Storage/MaxAgeMaxCount/ReadRange_And_NextEventNumber/when_reading_stream_with_max_count.cs:30-115 | the six forward reads of the fixture give exactly the records, next event number and end-of-stream flag the tests expect |
| StreamReadIndex.BackwardScenarios | src/EventStore/EventStore.Core.Tests/Services/Storage/MaxAgeMaxCount/ReadRange_And_NextEventNumber/when_reading_stream_with_max_count.cs:118-201 | the six backward reads of the fixture give exactly the records, next event number and end-of-stream flag the tests expect |
| ReadAll.ReadAllBackward | src/EventStore/EventStore.ClientAPI/EventStoreConnection.cs:440-446 | a slice holds min(maxCount, events before the position) events, the newest first, and its position is just before the oldest of them |
| ReadAll.PageAllBackwardIsReverse | src/EventStore/EventStore.Core.Tests/ClientAPI/AllEvents/read_all_events_backward_should.cs:155-211 | paging backward until an empty slice returns every event before the starting position, newest first |
| ReadAll.CollectAllBackward | src/EventStore/EventStore.Core.Tests/ClientAPI/AllEvents/read_all_events_backward_should.cs:155-211 | the paging loop collects the whole log in reverse |
| ReadAll.FromStartIsEmpty | src/EventStore/EventStore.Core.Tests/ClientAPI/AllEvents/read_all_events_backward_should.cs:53-68 | reading backward from the start of the log gives an empty slice |
| ReadAll.EmptyLogCollectsNothing | src/EventStore/EventStore.Core.Tests/ClientAPI/AllEvents/read_all_events_backward_should.cs:70-88 | paging an empty log collects nothing |
| ReadAll.PartialSliceHoldsWholeLog | src/EventStore/EventStore.Core.Tests/ClientAPI/AllEvents/read_all_events_backward_should.cs:90-110 | a slice larger than the log holds the creation event and every written event, so 21 events for 20 written |
| ReadAll.SystemEventsAreRead | src/EventStore/EventStore.Core.Tests/ClientAPI/AllEvents/read_all_events_backward_should.cs:134-153 | the last two events read back are the two StreamCreated events, newest first: read-all does not filter system events |
| ReadAll.PagingReturnsWrittenReversed | src/EventStore/EventStore.Core.Tests/ClientAPI/AllEvents/read_all_events_backward_should.cs:184-211 | paging returns the just-written events in reverse before anything older |
| TfChunk.CreateNew | src/EventStore/EventStore.Core.Tests/TransactionLog/Chunks/when_appending_to_a_tfchunk_without_flush.cs:47-53 | a new chunk is valid, empty, writable and not cached, and has the requested size |
| TfChunk.TryReadAt | src/EventStore/EventStore.Core.Tests/TransactionLog/Chunks/when_uncaching_a_tfchunk.cs:95-103 | a read succeeds exactly where a record starts, returns that record and the position after its frame, and fails with no record elsewhere |
| TfChunk.TryAppend | src/EventStore/EventStore.Core.Tests/TransactionLog/Chunks/when_appending_to_a_tfchunk_without_flush.cs:55-73 | a sealed chunk refuses; otherwise the append succeeds iff the framed record fits, reports the old writer position and the old position plus the framed size, and adds exactly that record at the old writer position, and leaves header, footer, flushed position and cache state alone; a refused append changes nothing |
| TfChunk.AppendThenRead | src/EventStore/EventStore.Core.Tests/TransactionLog/Chunks/when_uncaching_a_tfchunk.cs:95-103 | the appended record reads back at the position the append returned, and reads at earlier positions are unchanged |
| TfChunk.Flush | src/EventStore/EventStore.Core.Tests/TransactionLog/Chunks/when_uncaching_a_tfchunk.cs:55 | flushing makes the flushed position the writer position; records, header, footer and cache are unchanged |
| TfChunk.AppendIgnoresFlush | src/EventStore/EventStore.Core.Tests/TransactionLog/Chunks/when_appending_to_a_tfchunk_without_flush.cs:47-73 | an append reports the same result whether or not the chunk was flushed first |
| TfChunk.Complete | src/EventStore/EventStore.Core.Tests/TransactionLog/Chunks/when_uncaching_a_tfchunk.cs:56 | completing seals a writable chunk with a footer of (data size, content hash), flushes it, keeps every read, header, writer position and cache state, and fails on a sealed chunk |
| TfChunk.FromCompletedFile | src/EventStore/EventStore.Core.Tests/TransactionLog/Chunks/when_uncaching_a_tfchunk.cs:57 | opening a file without a footer fails, opening with a mismatching hash under verification fails, and otherwise the chunk is read-only, not cached and holds the file's records; a footered file whose hash matches, or is not verified, always opens |
| TfChunk.CompleteThenReopen | src/EventStore/EventStore.Core.Tests/TransactionLog/Chunks/when_uncaching_a_tfchunk.cs:55-57 | a completed chunk reopens with hash verification and reads exactly what the writer read |
| TfChunk.CacheInMemory | src/EventStore/EventStore.Core.Tests/TransactionLog/Chunks/when_uncaching_a_tfchunk.cs:58 | caching marks the chunk cached and changes no read, and no header, footer, record or position |
| TfChunk.UnCacheFromMemory | src/EventStore/EventStore.Core.Tests/TransactionLog/Chunks/when_uncaching_a_tfchunk.cs:59 | uncaching marks the chunk not cached and changes no read, and no header, footer, record or position |
| TfChunk.AppendToFreshChunkWithoutFlush | src/EventStore/EventStore.Core.Tests/TransactionLog/Chunks/when_appending_to_a_tfchunk_without_flush.cs:55-73 | one record appended to a fresh 4096-byte chunk succeeds at old position 0 and new position equal to its framed size, with nothing flushed |
| TfChunk.UncachingScenario | src/EventStore/EventStore.Core.Tests/TransactionLog/Chunks/when_uncaching_a_tfchunk.cs:69-103 | after append, flush, complete, reopen, cache and uncache, the chunk is not cached and the record reads back at position 0 with the position the append reported |
| AsciiText.EqualsIgnoreCasePointwise | src/EventStore/EventStore.Core/Services/Transport/Http/Codecs/CustomCodec.cs:59-62 | two strings are equal ignoring case iff they have the same length and agree letter by letter up to ASCII case |
| AsciiText.FoldCaseAppend | src/EventStore/EventStore.Core/Services/Transport/Http/Codecs/CustomCodec.cs:64-70 | case folding distributes over concatenation |
| AsciiText.SplitFirst | src/EventStore/EventStore.Core/Services/Transport/Http/Codecs/CustomCodec.cs:52-56 | splitting at the first separator gives parts that rebuild the string, with no separator in the first part; none iff the separator is absent |
| AsciiText.SplitFirstUnique | src/EventStore/EventStore.Core/Services/Transport/Http/Codecs/CustomCodec.cs:52-56 | the split at the first separator is the only split whose first part lacks the separator |
| Codecs.NewCustomCodec | src/EventStore/EventStore.Core/Services/Transport/Http/Codecs/CustomCodec.cs:45-57 | construction fails with an argument error iff the content type has no '/'; otherwise the codec keeps its arguments and its type and subtype are the parts around the first '/' |
| Codecs.CanParse | src/EventStore/EventStore.Core/Services/Transport/Http/Codecs/CustomCodec.cs:59-62 | a codec parses a Content-Type exactly when one is given and it matches the codec's content type letter for letter, ignoring case |
| Codecs.CodecParsesOwnContentType | src/EventStore/EventStore.Core/Services/Transport/Http/Codecs/CustomCodec.cs:45-62 | a codec built from a content type parses that content type as written and upper-cased |
| Codecs.SuitableForResponse | src/EventStore/EventStore.Core/Services/Transport/Http/Codecs/CustomCodec.cs:64-70 | a range is served exactly when its type is `*`, or its type matches the codec's ignoring case and its subtype is `*` or matches the codec's ignoring case |
| Codecs.SuitableIffParsesRange | src/EventStore/EventStore.Core/Services/Transport/Http/Codecs/CustomCodec.cs:64-70 | for a range without wildcards, a codec serves it iff the codec parses the content type the range spells |
| Codecs.WildcardsAreSuitable | src/EventStore/EventStore.Core/Services/Transport/Http/Codecs/CustomCodec.cs:64-70 | a range of type `*` is served by every codec, and a range of the codec's own type with subtype `*` by that codec |
| HttpService.RegisterControllerAction | src/EventStore/EventStore.Core/Services/Transport/Http/HttpService.cs:200-207 | registration adds the action only when it is new; every other action keeps its handler and earlier registrations keep their order |
| HttpService.FirstRegistrationWins | src/EventStore/EventStore.Core/Services/Transport/Http/HttpService.cs:200-207 | a second registration for an action never replaces the first handler |
| HttpService.AllMatches | src/EventStore/EventStore.Core/Services/Transport/Http/HttpService.cs:286-296 | exactly the registrations whose template matches the URL are returned |
| HttpService.AllMatchesAppend | src/EventStore/EventStore.Core/Services/Transport/Http/HttpService.cs:286-296 | the matches keep registration order: matching two runs of registrations gives the first run's matches followed by the second's |
| HttpService.AllMatchesSingle | src/EventStore/EventStore.Core/Services/Transport/Http/HttpService.cs:289-294 | a single registration is a match exactly when its template matches the URL |
| HttpService.AllowedMethods | src/EventStore/EventStore.Core/Services/Transport/Http/HttpService.cs:221-230 | the allowed methods are the matched routes' methods plus OPTIONS, each once |
| HttpService.AllowedMethodsInFirstOrder | src/EventStore/EventStore.Core/Services/Transport/Http/HttpService.cs:221-230 | the Allow list is in the order of each method's first mention by the matched routes, OPTIONS last unless a route already names it, as `Union` keeps first occurrences |
| HttpService.LastWithMethod | src/EventStore/EventStore.Core/Services/Transport/Http/HttpService.cs:237 | absent iff no matched route has the method; otherwise the last matched route with it |
| HttpService.TrySelectRequestCodec | src/EventStore/EventStore.Core/Services/Transport/Http/HttpService.cs:359-372 | no codec is needed iff the method is not POST, PUT or DELETE; otherwise exactly one parsing codec is chosen, none parsing is refused and several parsing is an error |
| HttpService.QueryFormat | src/EventStore/EventStore.Core/Services/Transport/Http/HttpService.cs:423 | the format parameter is absent iff no query key equals "format" ignoring case |
| HttpService.GetFormatOrDefault | src/EventStore/EventStore.Core/Services/Transport/Http/HttpService.cs:421-445 | no format parameter gives no format; the seven known names give their content types; any other name is an error |
| HttpService.FormatKeyIgnoresCase | src/EventStore/EventStore.Core/Services/Transport/Http/HttpService.cs:423-430 | a query parameter spelled "Format" selects the format like "format" does |
| HttpService.RepeatedFormatIsUnknown | src/EventStore/EventStore.Core/Services/Transport/Http/HttpService.cs:423-445 | a format parameter given more than once reads as its values joined with commas; no known format name contains a comma, so the request's format is an error |
| HttpService.RepeatedFormatExample | src/EventStore/EventStore.Core/Services/Transport/Http/HttpService.cs:423-445 | `format=json&FORMAT=xml` collects both values, in order, and is rejected as an unknown format |
| HttpService.OtherParametersSelectNoFormat | src/EventStore/EventStore.Core/Services/Transport/Http/HttpService.cs:423-425 | a query without a format parameter selects no format |
| HttpService.FormatContentType | src/EventStore/EventStore.Core/Services/Transport/Http/HttpService.cs:427-444 | a format name is recognised iff it is one of json, text, xml, atom, atomxj, atomsvc, atomsvcxj |
| HttpService.FirstSuitable | src/EventStore/EventStore.Core/Services/Transport/Http/HttpService.cs:386 | the first supported codec that serves the component, and none only if no supported codec does |
| HttpService.FirstServed | src/EventStore/EventStore.Core/Services/Transport/Http/HttpService.cs:399-400 | walking components in order, none is found iff no component is served; otherwise the codec found is the first supported codec of the first served component |
| HttpService.ParseAll | src/EventStore/EventStore.Core/Services/Transport/Http/HttpService.cs:393-395 | exactly the Accept entries that parse are kept |
| HttpService.ParseAllAppend | src/EventStore/EventStore.Core/Services/Transport/Http/HttpService.cs:393-395 | parsing keeps header order: the components of `a + b` are those of `a` followed by those of `b` |
| HttpService.ParseAllSingle | src/EventStore/EventStore.Core/Services/Transport/Http/HttpService.cs:394-395 | one Accept entry yields its component, or nothing when it does not parse |
| HttpService.SortByPriority | src/EventStore/EventStore.Core/Services/Transport/Http/HttpService.cs:396 | the parsed components are reordered, not changed, into non-increasing priority |
| HttpService.SortIsStable | src/EventStore/EventStore.Core/Services/Transport/Http/HttpService.cs:393-396 | ordering by descending priority is stable: for every priority, the components carrying it keep their header order |
| HttpService.TrySelectResponseCodec | src/EventStore/EventStore.Core/Services/Transport/Http/HttpService.cs:375-407 | an unknown format is an error; no format and no Accept header give the default codec; a format is served by the first supported codec for it, with an unparsable one an error and an empty codec list a refusal; the Accept path never errs |
| HttpService.ServedByPriority | src/EventStore/EventStore.Core/Services/Transport/Http/HttpService.cs:392-400 | trying components by descending priority finds a codec for a component that no servable component outranks, and finds none only if no component is servable |
| HttpService.AcceptNegotiation | src/EventStore/EventStore.Core/Services/Transport/Http/HttpService.cs:375-407 | Accept negotiation refuses iff no parsed component is servable, and otherwise answers with a top-priority servable component's first codec |
| HttpService.ProcessRequest | src/EventStore/EventStore.Core/Services/Transport/Http/HttpService.cs:216-284 | 404 iff no route matches; OPTIONS lists the allowed methods; 405 iff no matched route has the method; for the last route that has it, 415 with the Content-Type reason when no request codec parses, 500 when several do or response selection throws, 415 with the format reason when no response codec is available, and otherwise dispatch with the negotiated codecs; only a dispatch adds the request to the pending set, which stays ordered by arrival |
| HttpService.Negotiate | src/EventStore/EventStore.Core/Services/Transport/Http/HttpService.cs:244-283 | for the chosen route: no parsing request codec gives 415 (Content-Type), several give 500; then a throwing response selection gives 500, no response codec 415 (format), a chosen one dispatch |
| HttpService.DispatchedExactlyWhenNegotiated | src/EventStore/EventStore.Core/Services/Transport/Http/HttpService.cs:216-284 | a request reaches a controller iff a route matches, one has its verb, the verb is not OPTIONS, the request codec is settled and a response codec is chosen |
| HttpService.BodylessMethodsNeedNoRequestCodec | src/EventStore/EventStore.Core/Services/Transport/Http/HttpService.cs:359-366 | a request whose method carries no body is never refused for its content type and is dispatched without a request codec |
| HttpService.AddPending | src/EventStore/EventStore.Core/Services/Transport/Http/HttpService.cs:274-275 | a new pending request is added and the set stays ordered by arrival |
| HttpService.RequestSatisfied | src/EventStore/EventStore.Core/Services/Transport/Http/HttpService.cs:264-273 | an answered request leaves the pending set, the others stay, and sorted input stays sorted |
| HttpService.RequestSatisfiedCounts | src/EventStore/EventStore.Core/Services/Transport/Http/HttpService.cs:264-273 | every other pending request stays exactly as often as it was pending, and the answered one is gone |
| HttpService.RequestSatisfiedAppend | src/EventStore/EventStore.Core/Services/Transport/Http/HttpService.cs:264-273 | removing from `a + b` is removing from each part, so the survivors keep their order |
| HttpService.ExpireOldest | src/EventStore/EventStore.Core/Services/Transport/Http/HttpService.cs:163-173 | the oldest requests are removed while expired, stopping at the first that is not |
| HttpService.UpdatePendingRequests | src/EventStore/EventStore.Core/Services/Transport/Http/HttpService.cs:155-187 | a check for the other accessibility changes nothing and schedules nothing; otherwise the expired oldest prefix is removed and each request in it is answered 408, and the next check comes after one second |
| HttpService.SweepRemovesExactlyExpired | src/EventStore/EventStore.Core/Services/Transport/Http/HttpService.cs:163-173 | with requests ordered by arrival and none from the future, the sweep removes exactly the requests at least five seconds old |
| SessionDispatcher.KindOf | src/EventStore/EventStore.Projections.Core/Services/RequestResponseSessionDispatcher.cs:156-173 | a response is routed as Part if it is one, else as Begin, else as End, else ignored |
| SessionDispatcher.Handle | src/EventStore/EventStore.Projections.Core/Services/RequestResponseSessionDispatcher.cs:105-137 | Begin and Part for an open session invoke their callback and keep it; End removes it and invokes OnEnd; an unknown id changes nothing |
| SessionDispatcher.HandleAll | src/EventStore/EventStore.Projections.Core/Services/RequestResponseSessionDispatcher.cs:105-173 | handling responses never adds or alters sessions, only closes those that received an End |
| SessionDispatcher.HandleAllAppend | src/EventStore/EventStore.Projections.Core/Services/RequestResponseSessionDispatcher.cs:105-140 | handling two batches in turn is handling their concatenation: the first batch's callbacks run first, in order |
| SessionDispatcher.Publish | src/EventStore/EventStore.Projections.Core/Services/RequestResponseSessionDispatcher.cs:90-103 | a duplicate id fails; otherwise the session is registered before publishing, and the empty id comes back exactly when a response delivered while publishing ended the session; every other open session survives, unchanged, unless one of those responses ended it; the callbacks run are those of handling the responses against the map that already holds the new session |
| SessionDispatcher.ClosedIffEnded | src/EventStore/EventStore.Projections.Core/Services/RequestResponseSessionDispatcher.cs:127-137 | handling responses closes an open session exactly when one of them is an End for its id |
| SessionDispatcher.Cancel | src/EventStore/EventStore.Projections.Core/Services/RequestResponseSessionDispatcher.cs:144-148 | cancelling removes that session only |
| SessionDispatcher.CancelAll | src/EventStore/EventStore.Projections.Core/Services/RequestResponseSessionDispatcher.cs:150-154 | cancelling all leaves no session |
| SessionDispatcher.SessionLifecycle | src/EventStore/EventStore.Projections.Core/Services/RequestResponseSessionDispatcher.cs:90-137 | a published session sees Begin, Part, Part, End in order and is gone after the End, and a second End invokes nothing |
| SessionDispatcher.SynchronousEndReturnsEmpty | src/EventStore/EventStore.Projections.Core/Services/RequestResponseSessionDispatcher.cs:99-102 | a session ended while publishing makes Publish return the empty id |
| SessionDispatcher.CancelledSessionIgnoresResponses | src/EventStore/EventStore.Projections.Core/Services/RequestResponseSessionDispatcher.cs:144-148 | responses for a cancelled id are ignored |
| SessionDispatcher.HandlingNeverRegisters | src/EventStore/EventStore.Projections.Core/Services/RequestResponseSessionDispatcher.cs:105-137 | no sequence of responses registers an id or invokes a callback for an unregistered one |
| CreateStreamManager.HandleCreateStreamRequest | src/EventStore/EventStore.Core/Services/RequestManager/Managers/CreateStreamTwoPhaseRequestManager.cs:44-65 | a second request is refused; the first records envelope, correlation id and stream and publishes exactly a no-stream prepare of one data-less StreamCreated event, then the prepare-phase timer for that id |
| CreateStreamManager.CompleteSuccessRequest | src/EventStore/EventStore.Core/Services/RequestManager/Managers/CreateStreamTwoPhaseRequestManager.cs:68-74 | success is reported to the recorded envelope with code Success and no error text; with no request there is no envelope to reply to |
| CreateStreamManager.CompleteFailedRequest | src/EventStore/EventStore.Core/Services/RequestManager/Managers/CreateStreamTwoPhaseRequestManager.cs:76-81 | failure is reported to the recorded envelope with the given code and error text |
| CreateStreamManager.AcceptsOneRequest | src/EventStore/EventStore.Core/Services/RequestManager/Managers/CreateStreamTwoPhaseRequestManager.cs:46-49 | a manager accepts one request and refuses the next |
| CreateStreamManager.RepliesGoToRequester | src/EventStore/EventStore.Core/Services/RequestManager/Managers/CreateStreamTwoPhaseRequestManager.cs:68-81 | after a request both completions reply to the envelope it came with |
| CreateStreamManager.AcceptedRequestScenario | src/EventStore/EventStore.Core.Tests/Services/Replication/CreateStream/when_create_stream_accepts_request.cs:51-79 | a fresh manager given a request for "test123" publishes exactly two messages: the prepare with that correlation id and stream, then a timer with the prepare timeout carrying PreparePhaseTimeout with the same id |

## Left out

- The stream read index's implementation is not available here; its behaviour is reconstructed from the tests.
  - `ReadForward` and `ReadBackward` are reconstructed from the max-count test fixture and from the client API's argument checks (`count > 0`, and `start >= 0` for forward reads).
  - Their algorithm is the simplest one meeting every assertion of those tests.
  - `$maxAge` truncation and soft-deleted streams are not modelled.
  - Event numbers are unbounded integers; 32-bit overflow of `start + count` is not modelled.
- StreamReadIndex.DeletedStreamReadsNothing: the NoStream and StreamDeleted outcomes for missing and hard-deleted streams are reconstructed from the names of the read result. No available source text describes them, so this lemma has no row in the table.
- StreamReadIndex.ReadForward: the stream metadata's `$maxCount` is modelled as at least 1; a zero or negative max count is not represented.
- ReadAll: the log is a sequence of events addressed by index.
  - Commit/prepare byte positions and the filtering of deleted streams' events from read-all are not modelled, nor the corresponding deleted-stream tests.
  - Reading forward through all events is not modelled.
- TfChunk: the implementation of TFChunk and its writer and reader is not available here; its behaviour is reconstructed from the chunk tests. Within that reconstruction:
  - The frame of a record is its serialized size plus 8 bytes: a 4-byte length prefix and a 4-byte suffix.
  - The serializer itself, the header and footer byte layouts, and the MD5 hash are abstracted: the hash is a function parameter.
  - File I/O, memory-mapped reading, disposal and concurrent readers are left out.
- TfChunk.TryReadAt: the position after a read is assumed to be the record's position plus its frame size. The uncaching test's own check of the new position is disabled (when_uncaching_a_tfchunk.cs:102), so no available source text confirms it.
- Codecs: `From`, `To` and the chunked-encoding members delegate to the base codec or throw; serialization is left out.
- AsciiText: case-insensitive comparison folds the ASCII letters only; .NET's ordinal case-insensitive comparison also folds other Unicode letters.
- Codecs: built-in codecs are assumed to choose content types the way a `CustomCodec` does.
- HttpService: parsing and matching are supplied as functions.
  - URI template matching is the `uriMatches` parameter.
  - Parsing an Accept component is the `parse` parameter, which is None where the parser throws `ArgumentException`.
  - Priorities are reals, not single-precision floats.
- HttpService.TrySelectResponseCodec: `SortByPriority` is proved stable (`SortIsStable`). `AcceptNegotiation` still states only that the chosen component is not outranked by a served one. It does not say that among equal priorities the first in header order wins.
- HttpService.ProcessRequest: the controller's request handler is not modelled. In the source, an exception thrown by the handler is answered 500 but the request stays in the pending set, because it was added just before the call. The model always answers a dispatched request with `Dispatched`.
- HttpService.RegisterControllerAction: the source keys registrations by `ControllerAction`, whose equality is defined in a file that is not available. The model takes two actions to be equal when all five fields are, codec lists included. If the source compared only the template and the verb, a second registration that differed only in its codecs would be ignored there but kept here, and `LastWithMethod` would then pick it.
- HttpService.AllMatches: routes are kept in a dictionary, and the source enumerates it. The model takes that order to be registration order. This holds for a dictionary that only ever has entries added, but .NET does not document it.
- HttpService: the pending set is a sorted set keyed by arrival time. Two requests received at the same tick, which the sorted set's comparer may merge, are kept apart here.
- HttpService: listener startup, the receive-handler round robin, the HTTP pipe, log messages, reply reason phrases and the reply to a client that has gone away are left out.
- HttpService: the content-type names the format parameter maps to use EventStore's content-type strings; the ContentType class is not part of this model.
- SessionDispatcher: the publisher is modelled as the responses it delivers while the request is being published.
  - Callbacks are opaque handles that are reported, not run.
  - The lock and cross-thread counting are left out.
- CreateStreamManager: the base two-phase manager (prepare and commit counting, timeouts, the base completion calls) is not part of this model.
  - The `liveUntil` timestamp of the prepare is left out.
  - The fresh event id is a parameter, and the prepare timeout is part of the manager's configuration.
  - Error codes are numbers with Success as 0.
- The TCP client in EventStoreConnection.cs, the subscription tests and the JavaScript projection runtime are outside the modelled core; only the client API's argument checks are used.

=== FILE: ascii_text.dfy ===
/** Text helpers for the HTTP layer: ordinal case-insensitive comparison
    (approximated by ASCII case folding) and splitting at the first
    occurrence of a separator. */
module AsciiText {
  import opened Wrappers

  function ToUpper(c: char): (u: char)
    ensures 'a' <= c <= 'z' ==> u as int == c as int - 32
    ensures !('a' <= c <= 'z') ==> u == c
  {
    if 'a' <= c <= 'z' then (c as int - 32) as char else c
  }

  function FoldCase(s: string): (r: string)
    ensures |r| == |s|
    ensures forall i :: 0 <= i < |s| ==> r[i] == ToUpper(s[i])
  {
    if s == [] then [] else [ToUpper(s[0])] + FoldCase(s[1..])
  }

  /** Case-insensitive ordinal equality. */
  predicate EqualsIgnoreCase(a: string, b: string) {
    FoldCase(a) == FoldCase(b)
  }

  /** Two strings are equal ignoring case exactly when they have the same
      length and agree character by character after folding. */
  lemma EqualsIgnoreCasePointwise(a: string, b: string)
    ensures EqualsIgnoreCase(a, b) <==>
            |a| == |b| && forall i :: 0 <= i < |a| ==> ToUpper(a[i]) == ToUpper(b[i])
  {
    if |a| == |b| && forall i :: 0 <= i < |a| ==> ToUpper(a[i]) == ToUpper(b[i]) {
      assert forall i :: 0 <= i < |a| ==> FoldCase(a)[i] == FoldCase(b)[i];
    }
  }

  lemma {:induction false} FoldCaseAppend(a: string, b: string)
    ensures FoldCase(a + b) == FoldCase(a) + FoldCase(b)
  {
    assert forall i :: 0 <= i < |a + b| ==> FoldCase(a + b)[i] == (FoldCase(a) + FoldCase(b))[i];
  }

  /** Folding neither creates nor removes a '/' (nor any other non-letter). */
  lemma FoldKeepsSlash(s: string)
    ensures forall i :: 0 <= i < |s| ==> (FoldCase(s)[i] == '/' <==> s[i] == '/')
  {
  }

  /** `s` split at the first `sep`: the part before it and the rest after
      it; None when `sep` does not occur. */
  function SplitFirst(s: string, sep: char): (r: Option<(string, string)>)
    ensures r.None? <==> sep !in s
    ensures r.Some? ==> s == r.value.0 + [sep] + r.value.1 && sep !in r.value.0
  {
    if s == [] then None
    else if s[0] == sep then
      assert s == [] + [sep] + s[1..];
      Some(([], s[1..]))
    else match SplitFirst(s[1..], sep)
      case None => None
      case Some((before, after)) =>
        assert s == [s[0]] + s[1..];
        Some(([s[0]] + before, after))
  }

  /** A split at the first separator is unique. */
  lemma {:induction false} SplitFirstUnique(a: string, b: string, a': string, b': string, sep: char)
    requires sep !in a && sep !in a'
    requires a + [sep] + b == a' + [sep] + b'
    ensures a == a' && b == b'
    decreases |a|
  {
    var s := a + [sep] + b;
    assert s[0] == (if a == [] then sep else a[0]);
    assert s[0] == (if a' == [] then sep else a'[0]);
    assert a != [] ==> a[0] in a;
    assert a' != [] ==> a'[0] in a';
    if a == [] {
      assert b == s[1..] == b';
    } else {
      var t := a[1..] + [sep] + b;
      var t' := a'[1..] + [sep] + b';
      assert a + [sep] + b == [a[0]] + t;
      assert a' + [sep] + b' == [a'[0]] + t';
      assert t == s[1..] == t';
      assert sep !in a[1..] && sep !in a'[1..];
      SplitFirstUnique(a[1..], b, a'[1..], b', sep);
    }
  }
}

=== FILE: create_stream_manager.dfy ===
/** The two-phase request manager that creates a stream: on the request it
    asks storage to write the stream-creation prepare and arms the prepare
    timeout; when the base manager finishes, it answers the client.

    Envelopes are opaque reply addresses, the fresh event id is a
    parameter, and the configured prepare timeout is part of the state. */
module CreateStreamManager {
  import opened Wrappers

  type Guid = nat
  type Envelope = nat

  /** Operation result codes; the numbering of failures is not modelled,
      only that `Success` differs from them. */
  type OperationErrorCode = nat
  const Success: OperationErrorCode := 0

  datatype ExpectedVersion = Any | NoStream | Exact(version: nat)

  /** The empty payload a record carries when it has no data. */
  const NoData: seq<bv8> := []

  const StreamCreatedEventType: string := "StreamCreated"

  datatype Event = Event(eventId: Guid, eventType: string, isJson: bool, data: seq<bv8>, metadata: seq<bv8>)

  datatype CreateStreamRequest = CreateStreamRequest(
    correlationId: Guid,
    envelope: Envelope,
    eventStreamId: string,
    isJson: bool,
    metadata: seq<bv8>)

  datatype Message =
    | WritePrepares(correlationId: Guid, envelope: Envelope, eventStreamId: string,
                    expectedVersion: ExpectedVersion, events: seq<Event>, allowImplicitStreamCreation: bool)
    | Schedule(triggerAfter: nat, envelope: Envelope, reply: Message)
    | PreparePhaseTimeout(correlationId: Guid)
    | CreateStreamCompleted(correlationId: Guid, eventStreamId: string,
                            errorCode: OperationErrorCode, error: Option<string>)

  datatype Manager = Manager(
    publishEnvelope: Envelope,     // where the manager's own follow-up messages go
    prepareTimeout: nat,
    prepareCount: nat,
    commitCount: nat,
    initialized: bool,
    responseEnvelope: Option<Envelope>,
    correlationId: Guid,
    eventStreamId: string)

  datatype ManagerError = AlreadyInitialized | NoResponseEnvelope

  datatype Step = Step(manager: Manager, published: seq<Message>)

  /** A reply sent through an envelope. */
  datatype Reply = Reply(envelope: Envelope, message: Message)

  function NewManager(publishEnvelope: Envelope, prepareTimeout: nat, prepareCount: nat, commitCount: nat)
    : (m: Manager)
    ensures !m.initialized && m.responseEnvelope.None?
    ensures m.publishEnvelope == publishEnvelope && m.prepareTimeout == prepareTimeout
    ensures m.prepareCount == prepareCount && m.commitCount == commitCount
  {
    Manager(publishEnvelope, prepareTimeout, prepareCount, commitCount, false, None, 0, "")
  }

  /** The prepare that creates a stream: one "StreamCreated" event without
      data, written only if the stream does not exist yet. */
  predicate IsCreationPrepare(msg: Message, req: CreateStreamRequest, publishEnvelope: Envelope) {
    && msg.WritePrepares?
    && msg.correlationId == req.correlationId
    && msg.envelope == publishEnvelope
    && msg.eventStreamId == req.eventStreamId
    && msg.expectedVersion == NoStream
    && |msg.events| == 1
    && msg.events[0].eventType == StreamCreatedEventType
    && msg.events[0].isJson == req.isJson
    && msg.events[0].data == NoData
    && msg.events[0].metadata == req.metadata
    && !msg.allowImplicitStreamCreation
  }

  /** Accepts a create-stream request. A manager serves one request only;
      the first records the reply envelope, correlation id and stream and
      publishes the creation prepare followed by the prepare-phase timer. */
  function HandleCreateStreamRequest(m: Manager, req: CreateStreamRequest, newEventId: Guid)
    : (r: Result<Step, ManagerError>)
    ensures r.Err? <==> m.initialized
    ensures r.Err? ==> r.error == AlreadyInitialized
    ensures r.Ok? ==>
              var n := r.value.manager;
              && n.initialized
              && n.responseEnvelope == Some(req.envelope)
              && n.correlationId == req.correlationId
              && n.eventStreamId == req.eventStreamId
              && n.publishEnvelope == m.publishEnvelope && n.prepareTimeout == m.prepareTimeout
              && n.prepareCount == m.prepareCount && n.commitCount == m.commitCount
    ensures r.Ok? ==>
              var out := r.value.published;
              && |out| == 2
              && IsCreationPrepare(out[0], req, m.publishEnvelope)
              && out[0].events[0].eventId == newEventId
              && out[1] == Schedule(m.prepareTimeout, m.publishEnvelope, PreparePhaseTimeout(req.correlationId))
  {
    if m.initialized then Err(AlreadyInitialized)
    else
      var n := m.(initialized := true, responseEnvelope := Some(req.envelope),
                  correlationId := req.correlationId, eventStreamId := req.eventStreamId);
      var prepare := WritePrepares(
        req.correlationId, m.publishEnvelope, req.eventStreamId, NoStream,
        [Event(newEventId, StreamCreatedEventType, req.isJson, NoData, req.metadata)], false);
      Ok(Step(n, [prepare, Schedule(m.prepareTimeout, m.publishEnvelope, PreparePhaseTimeout(req.correlationId))]))
  }

  /** Answers the client that the stream was created. */
  function CompleteSuccessRequest(m: Manager, correlationId: Guid, eventStreamId: string)
    : (r: Result<Reply, ManagerError>)
    ensures r.Err? <==> m.responseEnvelope.None?
    ensures r.Ok? ==> r.value.envelope == m.responseEnvelope.value
    ensures r.Ok? ==> r.value.message.CreateStreamCompleted?
                      && r.value.message.errorCode == Success && r.value.message.error.None?
    ensures r.Ok? ==> r.value.message.correlationId == correlationId
                      && r.value.message.eventStreamId == eventStreamId
  {
    match m.responseEnvelope
    case None => Err(NoResponseEnvelope)
    case Some(envelope) => Ok(Reply(envelope, CreateStreamCompleted(correlationId, eventStreamId, Success, None)))
  }

  /** Answers the client with the failure the base manager reports. */
  function CompleteFailedRequest(m: Manager, correlationId: Guid, eventStreamId: string,
                                 errorCode: OperationErrorCode, error: string)
    : (r: Result<Reply, ManagerError>)
    ensures r.Err? <==> m.responseEnvelope.None?
    ensures r.Ok? ==> r.value.envelope == m.responseEnvelope.value
    ensures r.Ok? ==> r.value.message.CreateStreamCompleted?
                      && r.value.message.errorCode == errorCode && r.value.message.error == Some(error)
    ensures r.Ok? ==> r.value.message.correlationId == correlationId
                      && r.value.message.eventStreamId == eventStreamId
  {
    match m.responseEnvelope
    case None => Err(NoResponseEnvelope)
    case Some(envelope) => Ok(Reply(envelope, CreateStreamCompleted(correlationId, eventStreamId, errorCode, Some(error))))
  }

  /** A manager accepts exactly one request: a second one is refused, and
      the state the first one set up is what later replies use. */
  lemma AcceptsOneRequest(m: Manager, first: CreateStreamRequest, second: CreateStreamRequest, id1: Guid, id2: Guid)
    requires !m.initialized
    ensures var r1 := HandleCreateStreamRequest(m, first, id1);
            && r1.Ok?
            && HandleCreateStreamRequest(r1.value.manager, second, id2) == Err(AlreadyInitialized)
  {
  }

  /** Before any request there is nobody to answer. */
  lemma NoReplyBeforeRequest(publishEnvelope: Envelope, timeout: nat, prepares: nat, commits: nat, id: Guid, stream: string)
    ensures CompleteSuccessRequest(NewManager(publishEnvelope, timeout, prepares, commits), id, stream).Err?
  {
  }

  /** Once a request is accepted, completion replies go to the envelope the
      request came with, whatever the outcome. */
  lemma RepliesGoToRequester(m: Manager, req: CreateStreamRequest, newEventId: Guid,
                             code: OperationErrorCode, error: string)
    requires !m.initialized
    ensures var n := HandleCreateStreamRequest(m, req, newEventId).value.manager;
            && CompleteSuccessRequest(n, req.correlationId, req.eventStreamId)
               == Ok(Reply(req.envelope, CreateStreamCompleted(req.correlationId, req.eventStreamId, Success, None)))
            && CompleteFailedRequest(n, req.correlationId, req.eventStreamId, code, error)
               == Ok(Reply(req.envelope, CreateStreamCompleted(req.correlationId, req.eventStreamId, code, Some(error))))
  {
  }

  /** The accepted-request scenario: a fresh manager given a request for
      stream "test123" publishes exactly a creation prepare for that stream
      under the request's correlation id, then a timer that fires
      `PreparePhaseTimeout` with the same id after the prepare timeout. */
  lemma AcceptedRequestScenario(publishEnvelope: Envelope, prepareTimeout: nat, correlationId: Guid,
                                requestEnvelope: Envelope, metadata: seq<bv8>, newEventId: Guid)
    ensures var m := NewManager(publishEnvelope, prepareTimeout, 3, 3);
            var req := CreateStreamRequest(correlationId, requestEnvelope, "test123", false, metadata);
            var r := HandleCreateStreamRequest(m, req, newEventId);
            && r.Ok?
            && |r.value.published| == 2
            && r.value.published[0].WritePrepares?
            && r.value.published[0].correlationId == correlationId
            && r.value.published[0].eventStreamId == "test123"
            && r.value.published[1].Schedule?
            && r.value.published[1].triggerAfter == prepareTimeout
            && r.value.published[1].reply == PreparePhaseTimeout(correlationId)
  {
  }
}

=== FILE: custom_codec.dfy ===
/** A codec bound to one content type. It parses exactly that content type
    (ignoring case) and serves any Accept media range that covers it. The
    actual (de)serialisation is delegated to an underlying codec, which is
    represented here only by an opaque handle. */
module Codecs {
  import opened Wrappers
  import opened AsciiText

  /** The underlying codec that reading and writing are delegated to. */
  type BaseCodec = nat

  datatype CustomCodec = CustomCodec(
    baseCodec: BaseCodec,
    contentType: string,
    mediaType: string,
    mediaSubtype: string)

  /** One media range of an Accept header, with its priority (q-value). */
  datatype AcceptComponent = AcceptComponent(mediaType: string, mediaSubtype: string, priority: real)

  datatype ArgumentError = ArgumentError(paramName: string)

  /** The codec's media type and subtype are the two halves of its content
      type around the first '/'. */
  predicate WellFormed(c: CustomCodec) {
    c.contentType == c.mediaType + "/" + c.mediaSubtype && '/' !in c.mediaType
  }

  /** Builds a codec for `contentType`, which must contain a '/'. The type is
      everything before the first '/', the subtype everything after it. */
  function NewCustomCodec(codec: BaseCodec, contentType: string): (r: Result<CustomCodec, ArgumentError>)
    ensures r.Err? <==> '/' !in contentType
    ensures r.Ok? ==> WellFormed(r.value)
    ensures r.Ok? ==> r.value.baseCodec == codec && r.value.contentType == contentType
  {
    match SplitFirst(contentType, '/')
    case None => Err(ArgumentError("contentType"))
    case Some((t, st)) => Ok(CustomCodec(codec, contentType, t, st))
  }

  /** Two strings are the same text up to letter case, character by character. */
  predicate SameUpToCase(a: string, b: string) {
    |a| == |b| && forall i :: 0 <= i < |a| ==> ToUpper(a[i]) == ToUpper(b[i])
  }

  /** The codec reads a request body whose Content-Type equals its own,
      ignoring case; an absent Content-Type is never parsed. */
  function CanParse(c: CustomCodec, format: Option<string>): (b: bool)
    ensures b <==> format.Some? && SameUpToCase(format.value, c.contentType)
  {
    EqualsIgnoreCasePointwise(if format.Some? then format.value else "", c.contentType);
    format.Some? && EqualsIgnoreCase(format.value, c.contentType)
  }

  /** The codec can produce a response for the media range `component`: any
      type ("*"), or the codec's type with any subtype ("*") or with the
      codec's subtype, both compared ignoring case. */
  function SuitableForResponse(c: CustomCodec, component: AcceptComponent): (b: bool)
    ensures b <==>
              || component.mediaType == "*"
              || (SameUpToCase(component.mediaType, c.mediaType)
                  && (component.mediaSubtype == "*" || SameUpToCase(component.mediaSubtype, c.mediaSubtype)))
  {
    EqualsIgnoreCasePointwise(component.mediaType, c.mediaType);
    EqualsIgnoreCasePointwise(component.mediaSubtype, c.mediaSubtype);
    || component.mediaType == "*"
    || (EqualsIgnoreCase(component.mediaType, c.mediaType)
        && (component.mediaSubtype == "*" || EqualsIgnoreCase(component.mediaSubtype, c.mediaSubtype)))
  }

  /** A codec built from a content type parses that content type, both as
      written and upper-cased. */
  lemma CodecParsesOwnContentType(codec: BaseCodec, contentType: string)
    requires '/' in contentType
    ensures var c := NewCustomCodec(codec, contentType).value;
            CanParse(c, Some(contentType)) && CanParse(c, Some(FoldCase(contentType)))
  {
    forall i | 0 <= i < |contentType| ensures ToUpper(FoldCase(contentType)[i]) == ToUpper(contentType[i]) {
      var ch := contentType[i];
      assert FoldCase(contentType)[i] == ToUpper(ch);
    }
  }

  /** For a media range without wildcards, being suitable for a response is
      the same as being able to parse the content type the range spells. */
  lemma SuitableIffParsesRange(c: CustomCodec, component: AcceptComponent)
    requires WellFormed(c)
    requires component.mediaType != "*" && component.mediaSubtype != "*"
    requires '/' !in component.mediaType
    ensures SuitableForResponse(c, component) <==>
            CanParse(c, Some(component.mediaType + "/" + component.mediaSubtype))
  {
    var t, st := component.mediaType, component.mediaSubtype;
    FoldCaseAppend(t + "/", st);
    FoldCaseAppend(t, "/");
    FoldCaseAppend(c.mediaType + "/", c.mediaSubtype);
    FoldCaseAppend(c.mediaType, "/");
    assert FoldCase("/") == "/";
    FoldKeepsSlash(t);
    FoldKeepsSlash(c.mediaType);
    if CanParse(c, Some(t + "/" + st)) {
      assert FoldCase(t) + "/" + FoldCase(st) == FoldCase(c.mediaType) + "/" + FoldCase(c.mediaSubtype);
      SplitFirstUnique(FoldCase(t), FoldCase(st), FoldCase(c.mediaType), FoldCase(c.mediaSubtype), '/');
    }
  }

  /** A codec built from a content type serves the range "*" and the range
      of its own type with subtype "*". */
  lemma WildcardsAreSuitable(codec: BaseCodec, contentType: string, q: real)
    requires '/' in contentType
    ensures var c := NewCustomCodec(codec, contentType).value;
            && SuitableForResponse(c, AcceptComponent("*", "*", q))
            && SuitableForResponse(c, AcceptComponent(c.mediaType, "*", q))
  {
  }
}

=== FILE: http_service.dfy ===
/** The HTTP front end's decision procedure: controller registration, the
    order in which an incoming request is answered (404, OPTIONS, 405, 415
    for the request codec, 415 for the response codec, then dispatch to the
    controller), codec negotiation, and the expiry of requests left pending
    for too long.

    URI template matching and Accept-component parsing are supplied by the
    caller as functions; time is an integer count of 100-nanosecond ticks. */
module HttpService {
  import opened Wrappers
  import opened AsciiText
  import opened Codecs

  // HTTP method names.
  const Get: string := "GET"
  const Post: string := "POST"
  const Put: string := "PUT"
  const Delete: string := "DELETE"
  const Options: string := "OPTIONS"

  // Content types that a `format` query parameter may name.
  const JsonType: string := "application/json"
  const PlainTextType: string := "text/plain"
  const XmlType: string := "text/xml"
  const AtomType: string := "application/atom+xml"
  const AtomJsonType: string := "application/atom+x.json"
  const AtomServiceDocType: string := "application/atomsvc+xml"
  const AtomServiceDocJsonType: string := "application/atomsvc+x.json"

  const TicksPerSecond: int := 10_000_000
  /** How often pending requests are checked. */
  const UpdateInterval: int := 1 * TicksPerSecond
  /** How long a request may stay pending before it is timed out. */
  const MaxDuration: int := 5 * TicksPerSecond

  // Status codes sent by the service itself.
  const StatusOk: int := 200
  const StatusNotFound: int := 404
  const StatusMethodNotAllowed: int := 405
  const StatusRequestTimeout: int := 408
  const StatusUnsupportedMediaType: int := 415
  const StatusInternalServerError: int := 500

  datatype ServiceAccessibility = Private | Public

  /** A route: URI template and verb, with the codecs it accepts and
      produces. */
  datatype ControllerAction = ControllerAction(
    uriTemplate: string,
    httpMethod: string,
    supportedRequestCodecs: seq<CustomCodec>,
    supportedResponseCodecs: seq<CustomCodec>,
    defaultResponseCodec: CustomCodec)

  /** An opaque request handler supplied by a controller. */
  type Handler = nat

  datatype Registration = Registration(action: ControllerAction, handler: Handler)

  // ---------------------------------------------------------------------
  // Registration
  // ---------------------------------------------------------------------

  predicate DistinctActions(regs: seq<Registration>) {
    forall i, j :: 0 <= i < j < |regs| ==> regs[i].action != regs[j].action
  }

  /** The handler registered for `action`, if any. */
  function Lookup(regs: seq<Registration>, action: ControllerAction): (h: Option<Handler>)
    ensures h.None? <==> forall r :: r in regs ==> r.action != action
    ensures h.Some? ==> Registration(action, h.value) in regs
  {
    if regs == [] then None
    else if regs[0].action == action then Some(regs[0].handler)
    else Lookup(regs[1..], action)
  }

  /** Registers `handler` for `action` unless the action already has one:
      the first registration wins. Registrations keep their order. */
  function RegisterControllerAction(regs: seq<Registration>, action: ControllerAction, handler: Handler)
    : (r: seq<Registration>)
    ensures Lookup(r, action) == (if Lookup(regs, action).Some? then Lookup(regs, action) else Some(handler))
    ensures forall a :: a != action ==> Lookup(r, a) == Lookup(regs, a)
    ensures |regs| <= |r| && r[..|regs|] == regs
    ensures DistinctActions(regs) ==> DistinctActions(r)
  {
    if Lookup(regs, action).Some? then regs
    else
      var r := regs + [Registration(action, handler)];
      LookupAppend(regs, Registration(action, handler));
      assert r[..|regs|] == regs;
      r
  }

  lemma {:induction false} LookupAppend(regs: seq<Registration>, x: Registration)
    requires Lookup(regs, x.action).None?
    ensures Lookup(regs + [x], x.action) == Some(x.handler)
    ensures forall a :: a != x.action ==> Lookup(regs + [x], a) == Lookup(regs, a)
    decreases |regs|
  {
    if regs == [] {
      assert [x][1..] == [];
    } else {
      assert (regs + [x])[1..] == regs[1..] + [x];
      LookupAppend(regs[1..], x);
    }
  }

  /** Registering a second handler for an action never replaces the first. */
  lemma FirstRegistrationWins(regs: seq<Registration>, action: ControllerAction, h1: Handler, h2: Handler)
    requires Lookup(regs, action).None?
    ensures Lookup(RegisterControllerAction(RegisterControllerAction(regs, action, h1), action, h2), action) == Some(h1)
  {
  }

  // ---------------------------------------------------------------------
  // Route matching
  // ---------------------------------------------------------------------

  /** The registrations whose URI template matches `url`, in registration order. */
  function AllMatches(regs: seq<Registration>, url: string, uriMatches: (string, string) -> bool)
    : (r: seq<Registration>)
    ensures forall m :: m in r <==> m in regs && uriMatches(m.action.uriTemplate, url)
    ensures |r| <= |regs|
  {
    if regs == [] then []
    else
      var rest := AllMatches(regs[1..], url, uriMatches);
      if uriMatches(regs[0].action.uriTemplate, url) then [regs[0]] + rest else rest
  }

  /** Matching keeps registration order: the matches of two consecutive
      runs of registrations are the matches of the first run followed by
      those of the second. */
  lemma {:induction false} AllMatchesAppend(
    a: seq<Registration>, b: seq<Registration>, url: string, uriMatches: (string, string) -> bool)
    ensures AllMatches(a + b, url, uriMatches) == AllMatches(a, url, uriMatches) + AllMatches(b, url, uriMatches)
    decreases |a|
  {
    if a == [] {
      assert a + b == b;
    } else {
      assert (a + b)[0] == a[0] && (a + b)[1..] == a[1..] + b;
      AllMatchesAppend(a[1..], b, url, uriMatches);
    }
  }

  /** A single registration matches or not on its own template. */
  lemma AllMatchesSingle(x: Registration, url: string, uriMatches: (string, string) -> bool)
    ensures AllMatches([x], url, uriMatches) == if uriMatches(x.action.uriTemplate, url) then [x] else []
  {
    assert [x][1..] == [];
  }

  /** `s` with later repetitions removed (first occurrences kept in order). */
  function Distinct(s: seq<string>): (r: seq<string>)
    ensures forall x :: x in r <==> x in s
    ensures forall i, j :: 0 <= i < j < |r| ==> r[i] != r[j]
  {
    if s == [] then []
    else
      var d := Distinct(s[..|s| - 1]);
      assert forall x :: x in s <==> x in s[..|s| - 1] || x == s[|s| - 1];
      if s[|s| - 1] in d then d else d + [s[|s| - 1]]
  }

  /** The position of the first occurrence of `x` in `s`. */
  function FirstIndex(s: seq<string>, x: string): (i: nat)
    requires x in s
    ensures i < |s| && s[i] == x
    ensures forall j :: 0 <= j < i ==> s[j] != x
  {
    if s[0] == x then 0 else 1 + FirstIndex(s[1..], x)
  }

  /** Dropping the last element does not move a first occurrence before it. */
  lemma FirstIndexOfPrefix(s: seq<string>, x: string)
    requires s != [] && x in s[..|s| - 1]
    ensures FirstIndex(s, x) == FirstIndex(s[..|s| - 1], x)
  {
    var k := FirstIndex(s[..|s| - 1], x);
    var k' := FirstIndex(s, x);
    assert s[k] == x;
    assert k' <= k;
    assert s[..|s| - 1][k'] == x;
  }

  /** `Distinct` lists the elements in the order of their first occurrence. */
  lemma {:induction false} DistinctKeepsFirstOrder(s: seq<string>)
    ensures var r := Distinct(s);
            forall i, j :: 0 <= i < j < |r| ==> FirstIndex(s, r[i]) < FirstIndex(s, r[j])
    decreases |s|
  {
    if s != [] {
      var s' := s[..|s| - 1];
      var d := Distinct(s');
      var last := s[|s| - 1];
      DistinctKeepsFirstOrder(s');
      forall i | 0 <= i < |d|
        ensures d[i] in s' && FirstIndex(s, d[i]) == FirstIndex(s', d[i])
      {
        assert d[i] in d;
        FirstIndexOfPrefix(s, d[i]);
      }
      if last !in d {
        assert last !in s';
        assert FirstIndex(s, last) == |s| - 1 by {
          assert forall j :: 0 <= j < |s| - 1 ==> s[j] == s'[j];
        }
        var r := d + [last];
        forall i, j | 0 <= i < j < |r|
          ensures FirstIndex(s, r[i]) < FirstIndex(s, r[j])
        {
          assert r[i] == d[i];
          assert FirstIndex(s, d[i]) == FirstIndex(s', d[i]) < |s'|;
          if j < |d| {
            assert r[j] == d[j];
            assert FirstIndex(s, d[j]) == FirstIndex(s', d[j]);
            assert 0 <= i < j < |Distinct(s')|;
            assert FirstIndex(s', Distinct(s')[i]) < FirstIndex(s', Distinct(s')[j]);
          } else {
            assert r[j] == last;
          }
        }
      }
    }
  }

  function Methods(matches: seq<Registration>): (r: seq<string>)
    ensures |r| == |matches|
    ensures forall i :: 0 <= i < |r| ==> r[i] == matches[i].action.httpMethod
  {
    if matches == [] then [] else [matches[0].action.httpMethod] + Methods(matches[1..])
  }

  /** The methods the matched routes allow, OPTIONS always among them, each once. */
  function AllowedMethods(matches: seq<Registration>): (r: seq<string>)
    ensures Options in r
    ensures forall m :: m in r <==> m == Options || m in Methods(matches)
    ensures forall i, j :: 0 <= i < j < |r| ==> r[i] != r[j]
  {
    var ms := Methods(matches) + [Options];
    assert forall m :: m in ms <==> m == Options || m in Methods(matches);
    Distinct(ms)
  }

  /** The Allow list keeps the order in which the matched routes first name
      each method, with OPTIONS in its place at the end. */
  lemma AllowedMethodsInFirstOrder(matches: seq<Registration>)
    ensures var ms := Methods(matches) + [Options];
            var r := AllowedMethods(matches);
            forall i, j :: 0 <= i < j < |r| ==> FirstIndex(ms, r[i]) < FirstIndex(ms, r[j])
  {
    var ms := Methods(matches) + [Options];
    DistinctKeepsFirstOrder(ms);
    var r := AllowedMethods(matches);
    assert r == Distinct(ms);
    assert forall i, j :: 0 <= i < j < |r| ==> FirstIndex(ms, r[i]) < FirstIndex(ms, r[j]);
  }

  /** The index of the last of the first `k` matches with method `verb`,
      or -1 when there is none. */
  function LastIndexWithMethod(matches: seq<Registration>, verb: string, k: nat): (i: int)
    requires k <= |matches|
    ensures -1 <= i < k
    ensures i >= 0 ==> matches[i].action.httpMethod == verb
    ensures forall j :: i < j < k ==> matches[j].action.httpMethod != verb
  {
    if k == 0 then -1
    else if matches[k - 1].action.httpMethod == verb then k - 1
    else LastIndexWithMethod(matches, verb, k - 1)
  }

  /** The last matched route for `verb`. */
  function LastWithMethod(matches: seq<Registration>, verb: string): (r: Option<Registration>)
    ensures r.None? <==> verb !in Methods(matches)
    ensures r.Some? ==> exists i :: 0 <= i < |matches| && matches[i] == r.value
                          && r.value.action.httpMethod == verb
                          && forall j :: i < j < |matches| ==> matches[j].action.httpMethod != verb
  {
    var i := LastIndexWithMethod(matches, verb, |matches|);
    var ms := Methods(matches);
    if i < 0 then
      assert forall j :: 0 <= j < |ms| ==> ms[j] != verb;
      None
    else
      assert ms[i] == verb;
      Some(matches[i])
  }

  // ---------------------------------------------------------------------
  // Request codec
  // ---------------------------------------------------------------------

  datatype RequestCodecChoice =
    | NoCodec                    // the verb carries no body to decode
    | UseCodec(codec: CustomCodec)
    | NoneParses                 // no supported codec reads the Content-Type
    | Ambiguous                  // several do: selection throws

  predicate HasBody(verb: string) {
    verb == Post || verb == Put || verb == Delete
  }

  /** The supported codecs that can parse `contentType`, in order. */
  function Parsers(supported: seq<CustomCodec>, contentType: Option<string>): (r: seq<CustomCodec>)
    ensures forall c :: c in r <==> c in supported && CanParse(c, contentType)
    ensures |r| <= |supported|
  {
    if supported == [] then []
    else
      var rest := Parsers(supported[1..], contentType);
      if CanParse(supported[0], contentType) then [supported[0]] + rest else rest
  }

  /** Methods other than POST, PUT and DELETE need no request codec; the
      others need exactly one supported codec that parses the Content-Type. */
  function TrySelectRequestCodec(verb: string, contentType: Option<string>, supported: seq<CustomCodec>)
    : (r: RequestCodecChoice)
    ensures !HasBody(verb) <==> r == NoCodec
    ensures r.UseCodec? ==> r.codec in supported && CanParse(r.codec, contentType)
                            && |Parsers(supported, contentType)| == 1
    ensures HasBody(verb) && r.NoneParses? <==>
              HasBody(verb) && forall c :: c in supported ==> !CanParse(c, contentType)
    ensures r.Ambiguous? <==> HasBody(verb) && |Parsers(supported, contentType)| > 1
  {
    if !HasBody(verb) then NoCodec
    else
      var parsers := Parsers(supported, contentType);
      assert parsers != [] ==> parsers[0] in parsers;
      if |parsers| == 0 then NoneParses
      else if |parsers| == 1 then
        assert parsers[0] in parsers;
        UseCodec(parsers[0])
      else Ambiguous
  }

  // ---------------------------------------------------------------------
  // Response codec
  // ---------------------------------------------------------------------

  datatype NotSupported = UnknownFormat(format: string)

  /** The content type a known `format` name stands for. */
  function FormatContentType(format: string): (r: Option<string>)
    ensures r.Some? <==> format in ["json", "text", "xml", "atom", "atomxj", "atomsvc", "atomsvcxj"]
    ensures r.Some? ==> '/' in r.value
  {
    match format
    case "json" => Some(JsonType)
    case "text" => Some(PlainTextType)
    case "xml" => Some(XmlType)
    case "atom" => Some(AtomType)
    case "atomxj" => Some(AtomJsonType)
    case "atomsvc" => Some(AtomServiceDocType)
    case "atomsvcxj" => Some(AtomServiceDocJsonType)
    case _ => None
  }

  /** The values a query string gives `key` (matched ignoring case), in order. */
  function QueryValues(query: seq<(string, string)>, key: string): (r: seq<string>)
    ensures forall v :: v in r ==> exists p :: p in query && EqualsIgnoreCase(p.0, key) && p.1 == v
    ensures (exists p :: p in query && EqualsIgnoreCase(p.0, key)) ==> r != []
  {
    if query == [] then []
    else
      var rest := QueryValues(query[1..], key);
      assert forall p :: p in query[1..] ==> p in query;
      if EqualsIgnoreCase(query[0].0, key) then [query[0].1] + rest else rest
  }

  /** Several values for one key read as one comma-separated value. */
  function JoinWithCommas(values: seq<string>): string
    requires values != []
  {
    if |values| == 1 then values[0] else values[0] + "," + JoinWithCommas(values[1..])
  }

  /** The `format` query parameter, if present. */
  function QueryFormat(query: seq<(string, string)>): (r: Option<string>)
    ensures r.None? <==> forall p :: p in query ==> !EqualsIgnoreCase(p.0, "format")
    ensures r.Some? && |QueryValues(query, "format")| == 1 ==> r.value == QueryValues(query, "format")[0]
  {
    var values := QueryValues(query, "format");
    assert values != [] ==> values[0] in values;
    if values == [] then None else Some(JoinWithCommas(values))
  }

  /** The content type requested through `?format=`: absent when there is
      no such parameter, an error when it names an unknown format. */
  function GetFormatOrDefault(query: seq<(string, string)>): (r: Result<Option<string>, NotSupported>)
    ensures QueryFormat(query).None? ==> r == Ok(None)
    ensures QueryFormat(query).Some? ==>
              (r.Err? <==> FormatContentType(QueryFormat(query).value).None?)
    ensures r.Ok? && r.value.Some? ==> r.value == FormatContentType(QueryFormat(query).value)
  {
    match QueryFormat(query)
    case None => Ok(None)
    case Some(format) =>
      match FormatContentType(format)
      case None => Err(UnknownFormat(format))
      case Some(ct) => Ok(Some(ct))
  }

  /** The parameter name is matched ignoring case. */
  lemma FormatKeyIgnoresCase()
    ensures GetFormatOrDefault([("Format", "json")]) == Ok(Some(JsonType))
  {
    EqualsIgnoreCasePointwise("Format", "format");
    assert QueryValues([("Format", "json")], "format") == ["json"];
  }

  /** Repeating the parameter joins its values with commas, and no known
      format name contains a comma: a repeated format is an error. */
  lemma RepeatedFormatIsUnknown(query: seq<(string, string)>)
    requires |QueryValues(query, "format")| >= 2
    ensures GetFormatOrDefault(query) == Err(UnknownFormat(JoinWithCommas(QueryValues(query, "format"))))
  {
    var values := QueryValues(query, "format");
    var joined := JoinWithCommas(values);
    assert joined == values[0] + "," + JoinWithCommas(values[1..]);
    assert joined[|values[0]|] == ',';
    KnownFormatsHaveNoComma(joined);
  }

  lemma KnownFormatsHaveNoComma(format: string)
    ensures ',' in format ==> FormatContentType(format).None?
  {
  }

  /** `format=json&FORMAT=xml` names the unknown format "json,xml". */
  lemma RepeatedFormatExample()
    ensures GetFormatOrDefault([("format", "json"), ("FORMAT", "xml")]) == Err(UnknownFormat(JoinWithCommas(["json", "xml"])))
  {
    RepeatedFormatValues();
    RepeatedFormatIsUnknown([("format", "json"), ("FORMAT", "xml")]);
  }

  /** Both spellings of the repeated parameter are collected, in order. */
  lemma RepeatedFormatValues()
    ensures QueryValues([("format", "json"), ("FORMAT", "xml")], "format") == ["json", "xml"]
  {
    EqualsIgnoreCasePointwise("format", "format");
    EqualsIgnoreCasePointwise("FORMAT", "format");
    var q := [("format", "json"), ("FORMAT", "xml")];
    assert q[1..] == [("FORMAT", "xml")];
    assert QueryValues(q[1..], "format") == ["xml"];
  }

  /** Other parameters do not select a format. */
  lemma OtherParametersSelectNoFormat()
    ensures GetFormatOrDefault([("fmt", "json")]) == Ok(None)
  {
    EqualsIgnoreCasePointwise("fmt", "format");
    assert QueryValues([("fmt", "json")], "format") == [];
  }

  /** The first supported codec that serves `component`. */
  function FirstSuitable(supported: seq<CustomCodec>, component: AcceptComponent): (r: Option<CustomCodec>)
    ensures r.None? <==> forall c :: c in supported ==> !SuitableForResponse(c, component)
    ensures r.Some? ==> exists i :: 0 <= i < |supported| && supported[i] == r.value
                          && SuitableForResponse(r.value, component)
                          && forall j :: 0 <= j < i ==> !SuitableForResponse(supported[j], component)
  {
    if supported == [] then None
    else if SuitableForResponse(supported[0], component) then Some(supported[0])
    else
      var r := FirstSuitable(supported[1..], component);
      assert r.Some? ==> exists i :: 0 <= i < |supported| && supported[i] == r.value
                           && forall j :: 0 <= j < i ==> !SuitableForResponse(supported[j], component) by {
        if r.Some? {
          var i :| 0 <= i < |supported[1..]| && supported[1..][i] == r.value
                   && forall j :: 0 <= j < i ==> !SuitableForResponse(supported[1..][j], component);
          assert supported[i + 1] == r.value;
        }
      }
      r
  }

  /** The Accept components that parse, in header order; the others are dropped. */
  function ParseAll(acceptTypes: seq<string>, parse: string -> Option<AcceptComponent>)
    : (r: seq<AcceptComponent>)
    ensures forall a :: a in r ==> exists t :: t in acceptTypes && parse(t) == Some(a)
    ensures forall t :: t in acceptTypes && parse(t).Some? ==> parse(t).value in r
  {
    if acceptTypes == [] then []
    else
      var rest := ParseAll(acceptTypes[1..], parse);
      assert forall t :: t in acceptTypes <==> t == acceptTypes[0] || t in acceptTypes[1..];
      match parse(acceptTypes[0])
      case None => rest
      case Some(a) => [a] + rest
  }

  /** Parsing `a + b` parses `a`, then `b`: header order is kept. */
  lemma {:induction false} ParseAllAppend(a: seq<string>, b: seq<string>, parse: string -> Option<AcceptComponent>)
    ensures ParseAll(a + b, parse) == ParseAll(a, parse) + ParseAll(b, parse)
    decreases |a|
  {
    if a == [] {
      assert a + b == b;
    } else {
      assert (a + b)[0] == a[0] && (a + b)[1..] == a[1..] + b;
      ParseAllAppend(a[1..], b, parse);
      if parse(a[0]).Some? {
        ConcatAssoc([parse(a[0]).value], ParseAll(a[1..], parse), ParseAll(b, parse));
      }
    }
  }

  /** One Accept entry yields its component, or nothing when it does not parse. */
  lemma ParseAllSingle(t: string, parse: string -> Option<AcceptComponent>)
    ensures ParseAll([t], parse) == if parse(t).Some? then [parse(t).value] else []
  {
    assert [t][1..] == [];
  }

  predicate ByDescendingPriority(s: seq<AcceptComponent>) {
    forall i, j :: 0 <= i < j < |s| ==> s[i].priority >= s[j].priority
  }

  /** Places `x` after every element of at least its priority. */
  function InsertByPriority(x: AcceptComponent, s: seq<AcceptComponent>): (r: seq<AcceptComponent>)
    requires ByDescendingPriority(s)
    ensures ByDescendingPriority(r)
    ensures multiset(r) == multiset(s) + multiset{x}
  {
    if s == [] then [x]
    else if s[0].priority >= x.priority then
      var rest := InsertByPriority(x, s[1..]);
      assert s == [s[0]] + s[1..];
      HeadOutranks(s[0], s[1..], x, rest);
      [s[0]] + rest
    else
      OutranksAll(x, s);
      [x] + s
  }

  lemma OutranksAll(x: AcceptComponent, s: seq<AcceptComponent>)
    requires ByDescendingPriority(s) && s != [] && s[0].priority < x.priority
    ensures ByDescendingPriority([x] + s)
    ensures multiset([x] + s) == multiset(s) + multiset{x}
  {
    forall i, j | 0 <= i < j < |[x] + s| ensures ([x] + s)[i].priority >= ([x] + s)[j].priority {
      assert ([x] + s)[j] == s[j - 1];
      if i > 0 {
        assert ([x] + s)[i] == s[i - 1];
      } else {
        assert s[0].priority >= s[j - 1].priority;
      }
    }
  }

  lemma HeadOutranks(h: AcceptComponent, tail: seq<AcceptComponent>, x: AcceptComponent, rest: seq<AcceptComponent>)
    requires ByDescendingPriority([h] + tail) && ByDescendingPriority(rest)
    requires h.priority >= x.priority
    requires multiset(rest) == multiset(tail) + multiset{x}
    ensures ByDescendingPriority([h] + rest)
  {
    forall k | 0 <= k < |rest| ensures h.priority >= rest[k].priority {
      assert rest[k] in multiset(rest);
      if rest[k] != x {
        assert rest[k] in multiset(tail);
        var i :| 0 <= i < |tail| && tail[i] == rest[k];
        assert ([h] + tail)[0] == h && ([h] + tail)[i + 1] == tail[i];
      }
    }
    forall i, j | 0 <= i < j < |[h] + rest| ensures ([h] + rest)[i].priority >= ([h] + rest)[j].priority {
      if i > 0 {
        assert ([h] + rest)[i] == rest[i - 1];
      }
    }
  }

  /** The components of priority `p`, in their order in `s`. */
  function WithPriority(s: seq<AcceptComponent>, p: real): seq<AcceptComponent>
  {
    if s == [] then []
    else (if s[0].priority == p then [s[0]] else []) + WithPriority(s[1..], p)
  }

  lemma {:induction false} NoneOfPriority(s: seq<AcceptComponent>, p: real)
    requires forall k :: 0 <= k < |s| ==> s[k].priority < p
    ensures WithPriority(s, p) == []
    decreases |s|
  {
    if s != [] {
      NoneOfPriority(s[1..], p);
    }
  }

  lemma {:induction false} WithPriorityAppend(a: seq<AcceptComponent>, b: seq<AcceptComponent>, p: real)
    ensures WithPriority(a + b, p) == WithPriority(a, p) + WithPriority(b, p)
    decreases |a|
  {
    if a == [] {
      assert a + b == b;
    } else {
      var head := if a[0].priority == p then [a[0]] else [];
      assert a + b == [a[0]] + (a[1..] + b);
      WithPriorityCons(a[0], a[1..] + b, p);
      WithPriorityAppend(a[1..], b, p);
      WithPriorityHead(a, p);
      ConcatAssoc(head, WithPriority(a[1..], p), WithPriority(b, p));
    }
  }

  lemma WithPriorityCons(a: AcceptComponent, t: seq<AcceptComponent>, p: real)
    ensures WithPriority([a] + t, p) == (if a.priority == p then [a] else []) + WithPriority(t, p)
  {
    assert ([a] + t)[0] == a && ([a] + t)[1..] == t;
  }

  lemma WithPriorityHead(s: seq<AcceptComponent>, p: real)
    requires s != []
    ensures WithPriority(s, p) == (if s[0].priority == p then [s[0]] else []) + WithPriority(s[1..], p)
  {
  }

  lemma ConcatAssoc(a: seq<AcceptComponent>, b: seq<AcceptComponent>, c: seq<AcceptComponent>)
    ensures a + (b + c) == (a + b) + c
  {
  }

  /** Inserting `x` puts it after every component of equal priority. */
  lemma {:induction false} InsertKeepsTies(x: AcceptComponent, s: seq<AcceptComponent>, p: real)
    requires ByDescendingPriority(s)
    ensures WithPriority(InsertByPriority(x, s), p) == WithPriority(s, p) + (if x.priority == p then [x] else [])
    decreases |s|
  {
    var tie := if x.priority == p then [x] else [];
    var r := InsertByPriority(x, s);
    if s == [] {
      assert r == [x] + [];
      WithPriorityCons(x, [], p);
    } else if s[0].priority >= x.priority {
      var head := if s[0].priority == p then [s[0]] else [];
      var rest := InsertByPriority(x, s[1..]);
      var w := WithPriority(s[1..], p);
      assert r == [s[0]] + rest;
      InsertKeepsTies(x, s[1..], p);
      WithPriorityCons(s[0], rest, p);
      WithPriorityHead(s, p);
      ConcatAssoc(head, w, tie);
    } else {
      assert r == [x] + s;
      WithPriorityCons(x, s, p);
      if x.priority == p {
        assert forall k :: 0 <= k < |s| ==> s[k].priority <= s[0].priority;
        NoneOfPriority(s, p);
        assert tie + [] == [] + tie;
      } else {
        assert [] + WithPriority(s, p) == WithPriority(s, p) + [];
      }
    }
  }

  /** A stable sort by descending priority. */
  function SortByPriority(s: seq<AcceptComponent>): (r: seq<AcceptComponent>)
    ensures ByDescendingPriority(r)
    ensures multiset(r) == multiset(s)
  {
    if s == [] then []
    else
      assert s == s[..|s| - 1] + [s[|s| - 1]];
      InsertByPriority(s[|s| - 1], SortByPriority(s[..|s| - 1]))
  }

  /** The sort is stable: for every priority, the components carrying it
      keep their header order. */
  lemma {:induction false} SortIsStable(s: seq<AcceptComponent>, p: real)
    ensures WithPriority(SortByPriority(s), p) == WithPriority(s, p)
    decreases |s|
  {
    if s != [] {
      var init, last := s[..|s| - 1], s[|s| - 1];
      var tie := if last.priority == p then [last] else [];
      assert s == init + [last];
      assert SortByPriority(s) == InsertByPriority(last, SortByPriority(init));
      SortIsStable(init, p);
      InsertKeepsTies(last, SortByPriority(init), p);
      assert WithPriority(SortByPriority(s), p) == WithPriority(init, p) + tie;
      WithPriorityAppend(init, [last], p);
      assert WithPriority([last], p) == tie + WithPriority([], p);
      assert WithPriority(s, p) == WithPriority(init, p) + tie;
    }
  }

  /** The first index from `k` on that holds `true`, or `|b|`. */
  function FirstTrue(b: seq<bool>, k: nat): (i: nat)
    requires k <= |b|
    ensures k <= i <= |b|
    ensures forall j :: k <= j < i ==> !b[j]
    ensures i < |b| ==> b[i]
    decreases |b| - k
  {
    if k == |b| || b[k] then k else FirstTrue(b, k + 1)
  }

  /** For each component, whether some supported codec serves it. */
  function ServedFlags(components: seq<AcceptComponent>, supported: seq<CustomCodec>): (b: seq<bool>)
    ensures |b| == |components|
    ensures forall j :: 0 <= j < |b| ==> (b[j] <==> FirstSuitable(supported, components[j]).Some?)
  {
    seq(|components|, j requires 0 <= j < |components| => FirstSuitable(supported, components[j]).Some?)
  }

  /** The index of the first component from `k` on that some supported
      codec serves, or `|components|` when there is none. */
  function ServedIndex(components: seq<AcceptComponent>, supported: seq<CustomCodec>, k: nat): (i: nat)
    requires k <= |components|
    ensures k <= i <= |components|
    ensures forall j :: k <= j < i ==> FirstSuitable(supported, components[j]).None?
    ensures i < |components| ==> FirstSuitable(supported, components[i]).Some?
  {
    FirstTrue(ServedFlags(components, supported), k)
  }

  /** Walks the components in order and returns the first supported codec
      of the first component that has one. */
  function FirstServed(components: seq<AcceptComponent>, supported: seq<CustomCodec>): (r: Option<CustomCodec>)
    ensures r.None? <==> forall j :: 0 <= j < |components| ==> FirstSuitable(supported, components[j]).None?
    ensures r.Some? ==> exists i :: 0 <= i < |components| && FirstSuitable(supported, components[i]) == r
                          && forall j :: 0 <= j < i ==> FirstSuitable(supported, components[j]).None?
  {
    var i := ServedIndex(components, supported, 0);
    if i < |components| then FirstSuitable(supported, components[i]) else None
  }

  datatype ResponseCodecChoice =
    | Chosen(codec: CustomCodec)
    | NotAvailable               // nothing supported serves what was asked for
    | SelectionThrows            // an unknown format or an unparsable format component

  /** Response codec negotiation: the default codec when neither a format
      nor an Accept header is given; for a format, the first supported codec
      that serves it; otherwise the Accept components that parse, by
      descending priority, each looked up in the supported codecs. */
  function TrySelectResponseCodec(
    query: seq<(string, string)>,
    acceptTypes: seq<string>,
    supported: seq<CustomCodec>,
    default: CustomCodec,
    parse: string -> Option<AcceptComponent>)
    : (r: ResponseCodecChoice)
    ensures GetFormatOrDefault(query).Err? ==> r == SelectionThrows
    ensures GetFormatOrDefault(query) == Ok(None) && acceptTypes == [] ==> r == Chosen(default)
    ensures GetFormatOrDefault(query).Ok? && GetFormatOrDefault(query).value.Some? ==>
              var format := GetFormatOrDefault(query).value.value;
              && (supported == [] ==> r == NotAvailable)
              && (supported != [] && parse(format).None? ==> r == SelectionThrows)
              && (supported != [] && parse(format).Some? ==>
                    r == (match FirstSuitable(supported, parse(format).value)
                          case None => NotAvailable
                          case Some(c) => Chosen(c)))
    ensures GetFormatOrDefault(query) == Ok(None) && acceptTypes != [] ==> !r.SelectionThrows?
  {
    match GetFormatOrDefault(query)
    case Err(_) => SelectionThrows
    case Ok(None) =>
      if acceptTypes == [] then Chosen(default)
      else
        (match FirstServed(SortByPriority(ParseAll(acceptTypes, parse)), supported)
         case None => NotAvailable
         case Some(c) => Chosen(c))
    case Ok(Some(format)) =>
      if supported == [] then NotAvailable
      else
        match parse(format)
        case None => SelectionThrows
        case Some(component) =>
          match FirstSuitable(supported, component)
          case None => NotAvailable
          case Some(c) => Chosen(c)
  }

  lemma SortKeepsMembers(parsed: seq<AcceptComponent>)
    ensures forall a :: a in parsed <==> a in SortByPriority(parsed)
  {
    var sorted := SortByPriority(parsed);
    forall a ensures a in parsed <==> a in sorted {
      assert a in parsed <==> a in multiset(parsed);
      assert a in sorted <==> a in multiset(sorted);
    }
  }

  /** In a list ordered by descending priority, every component that
      outranks the one at `i` lies before it. */
  lemma OutrankingComeFirst(sorted: seq<AcceptComponent>, i: nat, b: AcceptComponent)
    requires ByDescendingPriority(sorted) && i < |sorted|
    requires b in sorted && b.priority > sorted[i].priority
    ensures exists k :: 0 <= k < i && sorted[k] == b
  {
    assert forall k :: i <= k < |sorted| ==> sorted[k].priority <= sorted[i].priority;
    var k :| 0 <= k < |sorted| && sorted[k] == b;
  }

  /** Trying the parsed components by descending priority finds a codec
      for a component whose priority no serviceable component exceeds, and
      finds none only when no component is served. */
  lemma ServedByPriority(parsed: seq<AcceptComponent>, supported: seq<CustomCodec>)
    ensures var r := FirstServed(SortByPriority(parsed), supported);
            && (r.None? <==> forall a :: a in parsed ==> FirstSuitable(supported, a).None?)
            && (r.Some? ==>
                  exists a :: a in parsed && FirstSuitable(supported, a) == r
                    && forall b :: b in parsed && b.priority > a.priority ==> FirstSuitable(supported, b).None?)
  {
    var sorted := SortByPriority(parsed);
    SortKeepsMembers(parsed);
    var i := ServedIndex(sorted, supported, 0);
    if i == |sorted| {
      forall a | a in parsed ensures FirstSuitable(supported, a).None? {
        var k :| 0 <= k < |sorted| && sorted[k] == a;
      }
    } else {
      var a := sorted[i];
      forall b | b in parsed && b.priority > a.priority
        ensures FirstSuitable(supported, b).None?
      {
        OutrankingComeFirst(sorted, i, b);
      }
      assert a in parsed;
    }
  }

  /** Accept-header negotiation picks, among the components that parse, one
      whose priority no serviceable component exceeds, and answers with the
      first supported codec for it; it fails only when no parsed component
      is served by any supported codec. */
  lemma AcceptNegotiation(
    query: seq<(string, string)>,
    acceptTypes: seq<string>,
    supported: seq<CustomCodec>,
    default: CustomCodec,
    parse: string -> Option<AcceptComponent>)
    requires GetFormatOrDefault(query) == Ok(None) && acceptTypes != []
    ensures var r := TrySelectResponseCodec(query, acceptTypes, supported, default, parse);
            var parsed := ParseAll(acceptTypes, parse);
            && (r.NotAvailable? <==> forall a :: a in parsed ==> FirstSuitable(supported, a).None?)
            && (r.Chosen? ==>
                  exists a :: a in parsed && FirstSuitable(supported, a) == Some(r.codec)
                    && forall b :: b in parsed && b.priority > a.priority ==> FirstSuitable(supported, b).None?)
  {
    var parsed := ParseAll(acceptTypes, parse);
    var served := FirstServed(SortByPriority(parsed), supported);
    assert TrySelectResponseCodec(query, acceptTypes, supported, default, parse)
        == (if served.Some? then Chosen(served.value) else NotAvailable);
    ServedByPriority(parsed, supported);
  }

  // ---------------------------------------------------------------------
  // Pending requests
  // ---------------------------------------------------------------------

  datatype PendingRequest = PendingRequest(id: nat, received: int)

  predicate SortedByReceived(p: seq<PendingRequest>) {
    forall i, j :: 0 <= i < j < |p| ==> p[i].received <= p[j].received
  }

  /** Adds a newly dispatched request, keeping the set ordered by arrival. */
  function AddPending(p: seq<PendingRequest>, e: PendingRequest): (r: seq<PendingRequest>)
    requires SortedByReceived(p)
    ensures SortedByReceived(r)
    ensures multiset(r) == multiset(p) + multiset{e}
  {
    if p == [] then [e]
    else if p[0].received <= e.received then
      var rest := AddPending(p[1..], e);
      assert p == [p[0]] + p[1..];
      ArrivedFirst(p[0], p[1..], e, rest);
      [p[0]] + rest
    else
      ArrivedBeforeAll(e, p);
      [e] + p
  }

  lemma ArrivedBeforeAll(e: PendingRequest, p: seq<PendingRequest>)
    requires SortedByReceived(p) && p != [] && e.received < p[0].received
    ensures SortedByReceived([e] + p)
    ensures multiset([e] + p) == multiset(p) + multiset{e}
  {
    forall i, j | 0 <= i < j < |[e] + p| ensures ([e] + p)[i].received <= ([e] + p)[j].received {
      assert ([e] + p)[j] == p[j - 1];
      if i > 0 {
        assert ([e] + p)[i] == p[i - 1];
      } else {
        assert p[0].received <= p[j - 1].received;
      }
    }
  }

  lemma ArrivedFirst(h: PendingRequest, tail: seq<PendingRequest>, e: PendingRequest, rest: seq<PendingRequest>)
    requires SortedByReceived([h] + tail) && SortedByReceived(rest)
    requires h.received <= e.received
    requires multiset(rest) == multiset(tail) + multiset{e}
    ensures SortedByReceived([h] + rest)
  {
    forall k | 0 <= k < |rest| ensures h.received <= rest[k].received {
      assert rest[k] in multiset(rest);
      if rest[k] != e {
        assert rest[k] in multiset(tail);
        var i :| 0 <= i < |tail| && tail[i] == rest[k];
        assert ([h] + tail)[0] == h && ([h] + tail)[i + 1] == tail[i];
      }
    }
    forall i, j | 0 <= i < j < |[h] + rest| ensures ([h] + rest)[i].received <= ([h] + rest)[j].received {
      if i > 0 {
        assert ([h] + rest)[i] == rest[i - 1];
      }
    }
  }

  /** A request that has been answered leaves the pending set. */
  function RequestSatisfied(p: seq<PendingRequest>, id: nat): (r: seq<PendingRequest>)
    ensures forall e :: e in r <==> e in p && e.id != id
    ensures SortedByReceived(p) ==> SortedByReceived(r)
  {
    if p == [] then []
    else
      var rest := RequestSatisfied(p[1..], id);
      assert forall e :: e in p <==> e == p[0] || e in p[1..];
      if p[0].id == id then rest else [p[0]] + rest
  }

  /** Removing a request from `a + b` removes it from each part and keeps the
      parts in order. */
  lemma {:induction false} RequestSatisfiedAppend(a: seq<PendingRequest>, b: seq<PendingRequest>, id: nat)
    ensures RequestSatisfied(a + b, id) == RequestSatisfied(a, id) + RequestSatisfied(b, id)
    decreases |a|
  {
    if a == [] {
      assert a + b == b;
    } else {
      assert (a + b)[0] == a[0] && (a + b)[1..] == a[1..] + b;
      RequestSatisfiedAppend(a[1..], b, id);
      var ra := RequestSatisfied(a[1..], id);
      var rb := RequestSatisfied(b, id);
      assert [a[0]] + (ra + rb) == ([a[0]] + ra) + rb;
    }
  }

  /** Every request other than the answered one stays exactly as often as
      it was pending; the answered one is gone. */
  lemma {:induction false} RequestSatisfiedCounts(p: seq<PendingRequest>, id: nat)
    ensures forall e :: multiset(RequestSatisfied(p, id))[e] == if e.id == id then 0 else multiset(p)[e]
    decreases |p|
  {
    if p != [] {
      RequestSatisfiedCounts(p[1..], id);
      var rest := RequestSatisfied(p[1..], id);
      assert multiset(p) == multiset{p[0]} + multiset(p[1..]) by {
        assert p == [p[0]] + p[1..];
      }
      if p[0].id != id {
        assert multiset([p[0]] + rest) == multiset{p[0]} + multiset(rest);
      }
    }
  }

  /** A single request is dropped exactly when it is the answered one. */
  lemma RequestSatisfiedSingle(e: PendingRequest, id: nat)
    ensures RequestSatisfied([e], id) == if e.id == id then [] else [e]
  {
    assert [e][1..] == [];
  }

  /** How far apart two instants are, whichever comes first. */
  function Duration(now: int, received: int): nat {
    if now >= received then now - received else received - now
  }

  predicate Expired(now: int, e: PendingRequest) {
    Duration(now, e.received) >= MaxDuration
  }

  /** Removes pending requests oldest first while they have expired,
      stopping at the first that has not. */
  function ExpireOldest(p: seq<PendingRequest>, now: int): (r: (seq<PendingRequest>, seq<PendingRequest>))
    ensures r.0 + r.1 == p
    ensures forall e :: e in r.0 ==> Expired(now, e)
    ensures r.1 != [] ==> !Expired(now, r.1[0])
  {
    if p == [] || !Expired(now, p[0]) then ([], p)
    else
      var later := ExpireOldest(p[1..], now);
      assert p == [p[0]] + p[1..];
      PrependExpired(p[0], later.0, later.1, now);
      ([p[0]] + later.0, later.1)
  }

  lemma PrependExpired(h: PendingRequest, expired: seq<PendingRequest>, rest: seq<PendingRequest>, now: int)
    requires Expired(now, h)
    requires forall e :: e in expired ==> Expired(now, e)
    ensures ([h] + expired) + rest == [h] + (expired + rest)
    ensures forall e :: e in [h] + expired ==> Expired(now, e)
  {
    assert forall e :: e in [h] + expired ==> e == h || e in expired;
  }

  datatype PendingUpdate = PendingUpdate(
    pending: seq<PendingRequest>,
    timedOut: seq<(nat, int)>,          // (request id, status code) replies
    rescheduleAfter: Option<int>)       // the next check, if one is scheduled

  function TimeoutReplies(expired: seq<PendingRequest>): (r: seq<(nat, int)>)
    ensures |r| == |expired|
    ensures forall i :: 0 <= i < |r| ==> r[i] == (expired[i].id, StatusRequestTimeout)
  {
    if expired == [] then [] else [(expired[0].id, StatusRequestTimeout)] + TimeoutReplies(expired[1..])
  }

  /** The periodic check of pending requests. A check meant for the other
      accessibility is ignored. Otherwise expired requests are removed
      oldest first, each is answered 408, and the next check is scheduled. */
  function UpdatePendingRequests(
    accessibility: ServiceAccessibility,
    messageAccessibility: ServiceAccessibility,
    pending: seq<PendingRequest>,
    now: int)
    : (r: PendingUpdate)
    ensures accessibility != messageAccessibility ==> r == PendingUpdate(pending, [], None)
    ensures accessibility == messageAccessibility ==>
              && r.rescheduleAfter == Some(UpdateInterval)
              && |r.pending| <= |pending| && r.pending == pending[|pending| - |r.pending|..]
              && (forall i :: 0 <= i < |pending| - |r.pending| ==> Expired(now, pending[i]))
              && (r.pending != [] ==> !Expired(now, r.pending[0]))
              && r.timedOut == TimeoutReplies(pending[..|pending| - |r.pending|])
  {
    if accessibility != messageAccessibility then PendingUpdate(pending, [], None)
    else
      var (expired, rest) := ExpireOldest(pending, now);
      assert pending[..|expired|] == expired && pending[|expired|..] == rest;
      assert forall i :: 0 <= i < |expired| ==> expired[i] in expired;
      PendingUpdate(rest, TimeoutReplies(expired), Some(UpdateInterval))
  }

  /** With requests ordered by arrival and none received after `now`, the
      oldest-first sweep removes exactly the expired requests. */
  lemma {:induction false} SweepRemovesExactlyExpired(p: seq<PendingRequest>, now: int)
    requires SortedByReceived(p)
    requires forall e :: e in p ==> e.received <= now
    ensures forall e :: e in p ==>
              && (e in ExpireOldest(p, now).0 <==> Expired(now, e))
              && (e in ExpireOldest(p, now).1 <==> !Expired(now, e))
    decreases |p|
  {
    if p != [] {
      if Expired(now, p[0]) {
        assert SortedByReceived(p[1..]);
        assert forall e :: e in p[1..] ==> e in p;
        SweepRemovesExactlyExpired(p[1..], now);
      } else {
        forall e | e in p ensures !Expired(now, e) {
          var i :| 0 <= i < |p| && p[i] == e;
          assert p[0].received <= e.received;
        }
      }
    }
  }

  // ---------------------------------------------------------------------
  // Processing one request
  // ---------------------------------------------------------------------

  datatype Request = Request(
    url: string,
    httpMethod: string,
    contentType: Option<string>,
    query: seq<(string, string)>,
    acceptTypes: seq<string>)     // an absent Accept header is an empty list

  datatype Reply =
    | NotFound
    | OptionsAllowed(allowed: seq<string>)
    | MethodNotAllowed(allowed: seq<string>)
    | UnsupportedMediaType(reason: string)
    | InternalServerError
    | Dispatched(handler: Handler, action: ControllerAction, requestCodec: Option<CustomCodec>,
                 responseCodec: CustomCodec, allowed: seq<string>)

  /** The status the service answers with itself; a dispatched request is
      answered by its controller. */
  function StatusCode(reply: Reply): Option<int> {
    match reply
    case NotFound => Some(StatusNotFound)
    case OptionsAllowed(_) => Some(StatusOk)
    case MethodNotAllowed(_) => Some(StatusMethodNotAllowed)
    case UnsupportedMediaType(_) => Some(StatusUnsupportedMediaType)
    case InternalServerError => Some(StatusInternalServerError)
    case Dispatched(_, _, _, _, _) => None
  }

  const ContentTypeRequired: string := "Content-Type MUST be set for POST PUT and DELETE"
  const FormatUnavailable: string := "Requested uri is not available in requested format"

  datatype Processed = Processed(reply: Reply, pending: seq<PendingRequest>)

  /** Answers one request: 404 when no route matches; the allowed methods
      for OPTIONS; 405 when no matching route has the verb; 415 when the
      request or response codec cannot be chosen; otherwise the request
      becomes pending and goes to the last matching route's handler. An
      exception during codec selection becomes 500. */
  function ProcessRequest(
    regs: seq<Registration>,
    pending: seq<PendingRequest>,
    req: Request,
    now: int,
    requestId: nat,
    uriMatches: (string, string) -> bool,
    parse: string -> Option<AcceptComponent>)
    : (r: Processed)
    requires SortedByReceived(pending)
    ensures SortedByReceived(r.pending)
    ensures !r.reply.Dispatched? ==> r.pending == pending
    ensures var matches := AllMatches(regs, req.url, uriMatches);
            && (r.reply == NotFound <==> matches == [])
            && (matches != [] && req.httpMethod == Options ==> r.reply == OptionsAllowed(AllowedMethods(matches)))
            && (matches != [] && req.httpMethod != Options ==>
                  (r.reply == MethodNotAllowed(AllowedMethods(matches)) <==>
                     LastWithMethod(matches, req.httpMethod).None?))
    ensures r.reply.Dispatched? ==>
              var matches := AllMatches(regs, req.url, uriMatches);
              var m := LastWithMethod(matches, req.httpMethod);
              && req.httpMethod != Options && m.Some?
              && r.reply.handler == m.value.handler && r.reply.action == m.value.action
              && r.reply.allowed == AllowedMethods(matches)
              && TrySelectRequestCodec(req.httpMethod, req.contentType, m.value.action.supportedRequestCodecs)
                   == (if r.reply.requestCodec.Some? then UseCodec(r.reply.requestCodec.value) else NoCodec)
              && TrySelectResponseCodec(req.query, req.acceptTypes, m.value.action.supportedResponseCodecs,
                                        m.value.action.defaultResponseCodec, parse)
                   == Chosen(r.reply.responseCodec)
              && multiset(r.pending) == multiset(pending) + multiset{PendingRequest(requestId, now)}
    ensures r.reply.UnsupportedMediaType? ==>
              r.reply.reason == ContentTypeRequired || r.reply.reason == FormatUnavailable
    ensures var matches := AllMatches(regs, req.url, uriMatches);
            var found := LastWithMethod(matches, req.httpMethod);
            matches != [] && req.httpMethod != Options && found.Some? ==>
              var m := found.value;
              var requestChoice := TrySelectRequestCodec(req.httpMethod, req.contentType, m.action.supportedRequestCodecs);
              var responseChoice := TrySelectResponseCodec(req.query, req.acceptTypes, m.action.supportedResponseCodecs,
                                                           m.action.defaultResponseCodec, parse);
              var accepted := requestChoice.NoCodec? || requestChoice.UseCodec?;
              && (requestChoice == NoneParses ==> r.reply == UnsupportedMediaType(ContentTypeRequired))
              && (requestChoice == Ambiguous ==> r.reply == InternalServerError)
              && (accepted && responseChoice == SelectionThrows ==> r.reply == InternalServerError)
              && (accepted && responseChoice == NotAvailable ==> r.reply == UnsupportedMediaType(FormatUnavailable))
              && (accepted && responseChoice.Chosen? ==>
                    r.reply == Dispatched(m.handler, m.action,
                                          if requestChoice.UseCodec? then Some(requestChoice.codec) else None,
                                          responseChoice.codec, AllowedMethods(matches)))
  {
    var matches := AllMatches(regs, req.url, uriMatches);
    if matches == [] then Processed(NotFound, pending)
    else
      var allowed := AllowedMethods(matches);
      if req.httpMethod == Options then Processed(OptionsAllowed(allowed), pending)
      else
        match LastWithMethod(matches, req.httpMethod)
        case None => Processed(MethodNotAllowed(allowed), pending)
        case Some(m) => Negotiate(pending, req, now, requestId, m, allowed, parse)
  }

  /** The codec steps of `ProcessRequest` for the route `m` that handles
      the request: 415 when no request codec parses the body, 500 when
      several do or response selection throws, 415 when no response codec
      is available, and otherwise dispatch. */
  function Negotiate(
    pending: seq<PendingRequest>,
    req: Request,
    now: int,
    requestId: nat,
    m: Registration,
    allowed: seq<string>,
    parse: string -> Option<AcceptComponent>)
    : (r: Processed)
    requires SortedByReceived(pending)
    ensures SortedByReceived(r.pending)
    ensures !r.reply.Dispatched? ==> r.pending == pending
    ensures r.reply.Dispatched? ==>
              multiset(r.pending) == multiset(pending) + multiset{PendingRequest(requestId, now)}
    ensures var requestChoice := TrySelectRequestCodec(req.httpMethod, req.contentType, m.action.supportedRequestCodecs);
            var responseChoice := TrySelectResponseCodec(req.query, req.acceptTypes, m.action.supportedResponseCodecs,
                                                         m.action.defaultResponseCodec, parse);
            var accepted := requestChoice.NoCodec? || requestChoice.UseCodec?;
            && (requestChoice == NoneParses ==> r.reply == UnsupportedMediaType(ContentTypeRequired))
            && (requestChoice == Ambiguous ==> r.reply == InternalServerError)
            && (accepted && responseChoice == SelectionThrows ==> r.reply == InternalServerError)
            && (accepted && responseChoice == NotAvailable ==> r.reply == UnsupportedMediaType(FormatUnavailable))
            && (accepted && responseChoice.Chosen? ==>
                  r.reply == Dispatched(m.handler, m.action,
                                        if requestChoice.UseCodec? then Some(requestChoice.codec) else None,
                                        responseChoice.codec, allowed))
  {
    match TrySelectRequestCodec(req.httpMethod, req.contentType, m.action.supportedRequestCodecs)
    case NoneParses => Processed(UnsupportedMediaType(ContentTypeRequired), pending)
    case Ambiguous => Processed(InternalServerError, pending)
    case NoCodec => Respond(pending, req, now, requestId, m, None, allowed, parse)
    case UseCodec(c) => Respond(pending, req, now, requestId, m, Some(c), allowed, parse)
  }

  /** The last step of `ProcessRequest`, once the request codec is known. */
  function Respond(
    pending: seq<PendingRequest>,
    req: Request,
    now: int,
    requestId: nat,
    m: Registration,
    requestCodec: Option<CustomCodec>,
    allowed: seq<string>,
    parse: string -> Option<AcceptComponent>)
    : (r: Processed)
    requires SortedByReceived(pending)
    ensures SortedByReceived(r.pending)
    ensures !r.reply.Dispatched? ==> r.pending == pending
    ensures var choice := TrySelectResponseCodec(req.query, req.acceptTypes, m.action.supportedResponseCodecs,
                                                 m.action.defaultResponseCodec, parse);
            && (choice == SelectionThrows ==> r.reply == InternalServerError)
            && (choice == NotAvailable ==> r.reply == UnsupportedMediaType(FormatUnavailable))
            && (choice.Chosen? ==> r.reply == Dispatched(m.handler, m.action, requestCodec, choice.codec, allowed))
    ensures r.reply.Dispatched? ==>
              && r.reply == Dispatched(m.handler, m.action, requestCodec, r.reply.responseCodec, allowed)
              && TrySelectResponseCodec(req.query, req.acceptTypes, m.action.supportedResponseCodecs,
                                        m.action.defaultResponseCodec, parse) == Chosen(r.reply.responseCodec)
              && multiset(r.pending) == multiset(pending) + multiset{PendingRequest(requestId, now)}
  {
    match TrySelectResponseCodec(req.query, req.acceptTypes, m.action.supportedResponseCodecs,
                                 m.action.defaultResponseCodec, parse)
    case SelectionThrows => Processed(InternalServerError, pending)
    case NotAvailable => Processed(UnsupportedMediaType(FormatUnavailable), pending)
    case Chosen(responseCodec) =>
      Processed(Dispatched(m.handler, m.action, requestCodec, responseCodec, allowed),
                AddPending(pending, PendingRequest(requestId, now)))
  }

  /** A request reaches a controller exactly when a route matches, one
      with the request's verb exists, the verb is not OPTIONS, the request
      codec is settled and a response codec is chosen. */
  lemma DispatchedExactlyWhenNegotiated(
    regs: seq<Registration>,
    pending: seq<PendingRequest>,
    req: Request,
    now: int,
    requestId: nat,
    uriMatches: (string, string) -> bool,
    parse: string -> Option<AcceptComponent>)
    requires SortedByReceived(pending)
    ensures var matches := AllMatches(regs, req.url, uriMatches);
            var found := LastWithMethod(matches, req.httpMethod);
            ProcessRequest(regs, pending, req, now, requestId, uriMatches, parse).reply.Dispatched? <==>
              && matches != [] && req.httpMethod != Options && found.Some?
              && (var requestChoice := TrySelectRequestCodec(req.httpMethod, req.contentType,
                                                             found.value.action.supportedRequestCodecs);
                  requestChoice.NoCodec? || requestChoice.UseCodec?)
              && TrySelectResponseCodec(req.query, req.acceptTypes, found.value.action.supportedResponseCodecs,
                                        found.value.action.defaultResponseCodec, parse).Chosen?
  {
  }

  /** A GET (or any verb without a body) never fails on the request
      codec: it is dispatched unless the response codec cannot be chosen. */
  lemma BodylessMethodsNeedNoRequestCodec(
    regs: seq<Registration>, pending: seq<PendingRequest>, req: Request, now: int, requestId: nat,
    uriMatches: (string, string) -> bool, parse: string -> Option<AcceptComponent>)
    requires SortedByReceived(pending)
    requires !HasBody(req.httpMethod) && req.httpMethod != Options
    requires LastWithMethod(AllMatches(regs, req.url, uriMatches), req.httpMethod).Some?
    ensures var r := ProcessRequest(regs, pending, req, now, requestId, uriMatches, parse);
            r.reply.Dispatched? ==> r.reply.requestCodec.None?
    ensures var r := ProcessRequest(regs, pending, req, now, requestId, uriMatches, parse);
            r.reply != UnsupportedMediaType(ContentTypeRequired)
  {
  }
}

=== FILE: read_all.dfy ===
/** Reading the whole transaction log backward ("read all"), a slice at a
    time, and paging through it by feeding each slice's position into the
    next read.

    The log is the sequence of recorded events in commit order. A position
    is the number of log entries that lie before it: `At(0)` is the start of
    the log and `End` always denotes its current end. Read-all does not
    filter by stream or event type, so StreamCreated system events are
    returned like any other event. */
module ReadAll {

  /** The shape of an event handed to a reader (the client's RecordedEvent). */
  datatype RecordedEvent = RecordedEvent(
    eventStreamId: string,
    eventId: nat,
    eventNumber: int,
    eventType: string,
    data: seq<bv8>,
    metadata: seq<bv8>)

  datatype Position = At(offset: nat) | End

  const Start: Position := At(0)

  datatype AllEventsSlice = AllEventsSlice(events: seq<RecordedEvent>, position: Position)

  /** The log index a position denotes; offsets past the end are clamped. */
  function Resolve<E>(log: seq<E>, p: Position): (n: nat)
    ensures n <= |log|
    ensures p.End? ==> n == |log|
    ensures p.At? && p.offset <= |log| ==> n == p.offset
  {
    match p
    case End => |log|
    case At(k) => if k < |log| then k else |log|
  }

  function Reverse<E>(s: seq<E>): (r: seq<E>)
    ensures |r| == |s|
    ensures forall i :: 0 <= i < |s| ==> r[i] == s[|s| - 1 - i]
  {
    if s == [] then [] else Reverse(s[1..]) + [s[0]]
  }

  lemma {:induction false} ReverseAppend<E>(a: seq<E>, b: seq<E>)
    ensures Reverse(a + b) == Reverse(b) + Reverse(a)
  {
    var l, r := Reverse(a + b), Reverse(b) + Reverse(a);
    assert |l| == |r|;
    forall i | 0 <= i < |l|
      ensures l[i] == r[i]
    {
      if i < |b| {
        assert l[i] == (a + b)[|a| + |b| - 1 - i] == b[|b| - 1 - i];
      } else {
        assert l[i] == (a + b)[|a| + |b| - 1 - i] == a[|a| - 1 - (i - |b|)];
      }
    }
  }

  /** Up to `maxCount` events lying immediately before `pos`, newest first,
      and the position the next backward read should start from. */
  function ReadAllBackward(log: seq<RecordedEvent>, pos: Position, maxCount: nat): (r: AllEventsSlice)
    requires maxCount > 0
    ensures var from := Resolve(log, pos);
            && |r.events| == (if maxCount < from then maxCount else from)
            && (forall i :: 0 <= i < |r.events| ==> r.events[i] == log[from - 1 - i])
            && r.position == At(from - |r.events|)
  {
    var from := Resolve(log, pos);
    var k := if maxCount < from then maxCount else from;
    AllEventsSlice(Reverse(log[from - k..from]), At(from - k))
  }

  /** Every event collected by reading backward from `pos`, a slice of at
      most `maxCount` at a time, until a slice comes back empty. */
  function PageAllBackward(log: seq<RecordedEvent>, pos: Position, maxCount: nat): seq<RecordedEvent>
    requires maxCount > 0
    decreases Resolve(log, pos)
  {
    var slice := ReadAllBackward(log, pos, maxCount);
    if slice.events == [] then []
    else slice.events + PageAllBackward(log, slice.position, maxCount)
  }

  /** Paging backward from any position yields exactly the log before that
      position, in reverse order, whatever the page size. */
  lemma {:induction false} PageAllBackwardIsReverse(log: seq<RecordedEvent>, pos: Position, maxCount: nat)
    requires maxCount > 0
    ensures PageAllBackward(log, pos, maxCount) == Reverse(log[..Resolve(log, pos)])
    decreases Resolve(log, pos)
  {
    var from := Resolve(log, pos);
    var slice := ReadAllBackward(log, pos, maxCount);
    if slice.events != [] {
      var k := |slice.events|;
      PageAllBackwardIsReverse(log, slice.position, maxCount);
      assert log[..from] == log[..from - k] + log[from - k..from];
      ReverseAppend(log[..from - k], log[from - k..from]);
      assert slice.events == Reverse(log[from - k..from]);
    }
  }

  /** The client loop: start at the end of the log, read a slice, append its
      events, continue from the slice's position, stop at an empty slice. */
  method CollectAllBackward(log: seq<RecordedEvent>, maxCount: nat) returns (all: seq<RecordedEvent>)
    requires maxCount > 0
    ensures all == Reverse(log)
  {
    all := [];
    var position := End;
    var slice := ReadAllBackward(log, position, maxCount);
    while slice.events != []
      invariant slice == ReadAllBackward(log, position, maxCount)
      invariant all + Reverse(log[..Resolve(log, position)]) == Reverse(log)
      decreases Resolve(log, position)
    {
      var from := Resolve(log, position);
      var k := |slice.events|;
      assert log[..from] == log[..from - k] + log[from - k..from];
      ReverseAppend(log[..from - k], log[from - k..from]);
      assert slice.events == Reverse(log[from - k..from]);
      all := all + slice.events;
      position := slice.position;
      slice := ReadAllBackward(log, position, maxCount);
    }
    assert Resolve(log, position) == 0;
    assert log[..0] == [];
  }

  // ---------------------------------------------------------------------
  // The read-all-backward scenarios.
  // ---------------------------------------------------------------------

  /** Reading backward from the start of the log returns an empty slice. */
  lemma FromStartIsEmpty(log: seq<RecordedEvent>, maxCount: nat)
    requires maxCount > 0
    ensures ReadAllBackward(log, Start, maxCount).events == []
  {
  }

  /** On an empty log the paging loop stops at once and collects nothing. */
  lemma EmptyLogCollectsNothing(maxCount: nat)
    requires maxCount > 0
    ensures PageAllBackward([], End, maxCount) == []
  {
  }

  /** A slice larger than the log holds every event, newest first, the
      StreamCreated event included. */
  lemma {:induction false} PartialSliceHoldsWholeLog(created: RecordedEvent, written: seq<RecordedEvent>, maxCount: nat)
    requires maxCount > |written|
    ensures var r := ReadAllBackward([created] + written, End, maxCount);
            |r.events| == |written| + 1 && r.events == Reverse([created] + written)
            && r.events[|written|] == created
  {
    var log := [created] + written;
    var r := ReadAllBackward(log, End, maxCount);
    assert r.events == Reverse(log[0..|log|]);
    assert log[0..|log|] == log;
  }

  /** Read-all does not filter by event type: a slice over two freshly
      created streams returns both StreamCreated events. */
  lemma SystemEventsAreRead(before: seq<RecordedEvent>, c1: RecordedEvent, c2: RecordedEvent)
    requires c1.eventType == "StreamCreated" && c2.eventType == "StreamCreated"
    ensures var r := ReadAllBackward(before + [c1, c2], End, 2);
            r.events == [c2, c1] && forall e :: e in r.events ==> e.eventType == "StreamCreated"
  {
    var log := before + [c1, c2];
    var r := ReadAllBackward(log, End, 2);
    assert r.events[0] == log[|log| - 1] == c2;
    assert r.events[1] == log[|log| - 2] == c1;
  }

  /** Paging backward over a log whose last events are the ones just
      written returns those events reversed first, followed by everything
      written before them (the stream's creation among it), reversed. */
  lemma {:induction false} PagingReturnsWrittenReversed(before: seq<RecordedEvent>, written: seq<RecordedEvent>, maxCount: nat)
    requires maxCount > 0
    ensures var all := PageAllBackward(before + written, End, maxCount);
            all == Reverse(written) + Reverse(before) && all[..|written|] == Reverse(written)
  {
    var log := before + written;
    PageAllBackwardIsReverse(log, End, maxCount);
    assert log[..|log|] == log;
    ReverseAppend(before, written);
  }
}

=== FILE: session_dispatcher.dfy ===
/** The projection subsystem's request/response session dispatcher: a map
    from a request's correlation id to the three callbacks that receive
    the session's Begin, Part and End responses.

    Callbacks are opaque handles; instead of running them, the model
    returns the invocations in the order they happen. The publisher is
    modelled by the responses it delivers synchronously while the request
    is being published. */
module SessionDispatcher {
  import opened Wrappers

  /** A correlation id; `EmptyId` stands for `Guid.Empty`. */
  type CorrelationId = nat
  const EmptyId: CorrelationId := 0

  type Callback = nat

  datatype Item = Item(onBegin: Callback, onPart: Callback, onEnd: Callback)

  type Sessions = map<CorrelationId, Item>

  /** A response and the message kinds it is an instance of; one message
      type may derive from several of the three. */
  datatype Response = Response(correlationId: CorrelationId, isBegin: bool, isPart: bool, isEnd: bool)

  datatype Invocation = Invoked(callback: Callback, response: Response)

  datatype DispatchError = DuplicateCorrelationId(id: CorrelationId)

  datatype Kind = PartKind | BeginKind | EndKind | Unrecognised

  /** How a response is routed: a Part is recognised first, then a Begin,
      then an End. */
  function KindOf(r: Response): (k: Kind)
    ensures k == PartKind <==> r.isPart
    ensures k == BeginKind <==> !r.isPart && r.isBegin
    ensures k == EndKind <==> !r.isPart && !r.isBegin && r.isEnd
    ensures k == Unrecognised <==> !r.isPart && !r.isBegin && !r.isEnd
  {
    if r.isPart then PartKind
    else if r.isBegin then BeginKind
    else if r.isEnd then EndKind
    else Unrecognised
  }

  datatype Handled = Handled(sessions: Sessions, invoked: seq<Invocation>)

  /** Handles one response. Begin and Part invoke their callback and keep
      the session; End removes the session and then invokes its callback;
      a response for an unknown id, or of no known kind, changes nothing. */
  function Handle(sessions: Sessions, r: Response): (h: Handled)
    ensures r.correlationId !in sessions || KindOf(r) == Unrecognised ==> h == Handled(sessions, [])
    ensures r.correlationId in sessions && KindOf(r) != Unrecognised ==>
              var item := sessions[r.correlationId];
              && |h.invoked| == 1 && h.invoked[0].response == r
              && h.invoked[0].callback == (match KindOf(r)
                                           case PartKind => item.onPart
                                           case BeginKind => item.onBegin
                                           case _ => item.onEnd)
    ensures KindOf(r) != EndKind ==> h.sessions == sessions
    ensures KindOf(r) == EndKind ==> h.sessions == sessions - {r.correlationId}
  {
    var id := r.correlationId;
    if id !in sessions then Handled(sessions, [])
    else
      match KindOf(r)
      case PartKind => Handled(sessions, [Invoked(sessions[id].onPart, r)])
      case BeginKind => Handled(sessions, [Invoked(sessions[id].onBegin, r)])
      case EndKind => Handled(sessions - {id}, [Invoked(sessions[id].onEnd, r)])
      case Unrecognised => Handled(sessions, [])
  }

  /** Handles responses in order. */
  function HandleAll(sessions: Sessions, rs: seq<Response>): (h: Handled)
    ensures h.sessions.Keys <= sessions.Keys
    ensures forall id :: id in h.sessions ==> h.sessions[id] == sessions[id]
    ensures |h.invoked| <= |rs|
    ensures forall i :: 0 <= i < |h.invoked| ==> h.invoked[i].response in rs
    ensures forall id :: id in sessions && id !in h.sessions ==>
              exists r :: r in rs && r.correlationId == id && KindOf(r) == EndKind
  {
    if rs == [] then Handled(sessions, [])
    else
      var first := Handle(sessions, rs[0]);
      var rest := HandleAll(first.sessions, rs[1..]);
      assert forall r :: r in rs[1..] ==> r in rs;
      Handled(rest.sessions, first.invoked + rest.invoked)
  }

  datatype Published = Published(sessions: Sessions, invoked: seq<Invocation>, returned: CorrelationId)

  /** Registers the callbacks under the request's correlation id, then
      publishes the request; responses the publisher delivers while
      publishing are handled at once. The id is returned if the session is
      still open afterwards, `EmptyId` otherwise. Registering an id twice
      fails. */
  function Publish(sessions: Sessions, requestId: CorrelationId, item: Item, synchronous: seq<Response>)
    : (r: Result<Published, DispatchError>)
    ensures r.Err? <==> requestId in sessions
    ensures r.Err? ==> r.error == DuplicateCorrelationId(requestId)
    ensures r.Ok? ==> r.value.returned == (if requestId in r.value.sessions then requestId else EmptyId)
    ensures r.Ok? ==> r.value.sessions.Keys <= sessions.Keys + {requestId}
    ensures r.Ok? && synchronous == [] ==>
              r.value == Published(sessions[requestId := item], [], requestId)
    ensures r.Ok? && requestId != EmptyId ==>
              (r.value.returned == EmptyId <==> EndsSession(synchronous, requestId))
    ensures r.Ok? ==> forall id :: id in sessions ==>
              (id in r.value.sessions <==> !EndsSession(synchronous, id))
    ensures r.Ok? ==> forall id :: id in r.value.sessions ==> r.value.sessions[id] == sessions[requestId := item][id]
    ensures r.Ok? ==> Handled(r.value.sessions, r.value.invoked) == HandleAll(sessions[requestId := item], synchronous)
  {
    if requestId in sessions then Err(DuplicateCorrelationId(requestId))
    else
      var registered := sessions[requestId := item];
      var h := HandleAll(registered, synchronous);
      ClosedIffEnded(registered, synchronous, requestId);
      assert forall id :: id in sessions ==> (id in h.sessions <==> !EndsSession(synchronous, id)) by {
        forall id | id in sessions
          ensures id in h.sessions <==> !EndsSession(synchronous, id)
        {
          ClosedIffEnded(registered, synchronous, id);
        }
      }
      Ok(Published(h.sessions, h.invoked, if requestId in h.sessions then requestId else EmptyId))
  }

  /** Some response in `rs` is an End for `id`. */
  predicate EndsSession(rs: seq<Response>, id: CorrelationId) {
    exists i :: 0 <= i < |rs| && rs[i].correlationId == id && KindOf(rs[i]) == EndKind
  }

  /** An open session is closed by handling `rs` exactly when `rs` holds an
      End for it. */
  lemma {:induction false} ClosedIffEnded(sessions: Sessions, rs: seq<Response>, id: CorrelationId)
    requires id in sessions
    ensures id !in HandleAll(sessions, rs).sessions <==> EndsSession(rs, id)
    decreases |rs|
  {
    if rs != [] {
      var first := Handle(sessions, rs[0]);
      if rs[0].correlationId == id && KindOf(rs[0]) == EndKind {
        HandlingNeverRegisters(first.sessions, rs[1..], id);
      } else {
        assert id in first.sessions;
        ClosedIffEnded(first.sessions, rs[1..], id);
        if EndsSession(rs[1..], id) {
          var i :| 0 <= i < |rs[1..]| && rs[1..][i].correlationId == id && KindOf(rs[1..][i]) == EndKind;
          assert rs[i + 1] == rs[1..][i];
        }
        if EndsSession(rs, id) {
          var i :| 0 <= i < |rs| && rs[i].correlationId == id && KindOf(rs[i]) == EndKind;
          assert i > 0 && rs[1..][i - 1] == rs[i];
        }
      }
    }
  }

  /** Handling `a` and then `b` is handling `a + b`: the invocations of the
      first batch come first, in order. */
  lemma {:induction false} HandleAllAppend(sessions: Sessions, a: seq<Response>, b: seq<Response>)
    ensures var h1 := HandleAll(sessions, a);
            var h2 := HandleAll(h1.sessions, b);
            HandleAll(sessions, a + b) == Handled(h2.sessions, h1.invoked + h2.invoked)
    decreases |a|
  {
    if a == [] {
      assert a + b == b;
    } else {
      assert (a + b)[0] == a[0] && (a + b)[1..] == a[1..] + b;
      var first := Handle(sessions, a[0]);
      HandleAllAppend(first.sessions, a[1..], b);
      var h1 := HandleAll(first.sessions, a[1..]);
      var h2 := HandleAll(h1.sessions, b);
      assert first.invoked + (h1.invoked + h2.invoked) == (first.invoked + h1.invoked) + h2.invoked;
    }
  }

  /** Handling a single response is `Handle`. */
  lemma HandleAllSingle(sessions: Sessions, r: Response)
    ensures HandleAll(sessions, [r]) == Handle(sessions, r)
  {
    assert [r][1..] == [];
    assert Handle(sessions, r).invoked + [] == Handle(sessions, r).invoked;
  }

  /** Forgets one session; the others are kept. */
  function Cancel(sessions: Sessions, id: CorrelationId): (r: Sessions)
    ensures id !in r
    ensures forall other :: other != id ==> (other in r <==> other in sessions)
    ensures forall other :: other in r ==> r[other] == sessions[other]
  {
    sessions - {id}
  }

  /** Forgets every session. */
  function CancelAll(sessions: Sessions): (r: Sessions)
    ensures forall id :: id !in r
  {
    map[]
  }

  /** A session sees its Begin, its Parts and its End, in order, and is gone
      afterwards: a second End for the same id invokes nothing. */
  lemma SessionLifecycle(sessions: Sessions, id: CorrelationId, item: Item)
    requires id != EmptyId && id !in sessions
    ensures var begin := Response(id, true, false, false);
            var part := Response(id, false, true, false);
            var end := Response(id, false, false, true);
            var p := Publish(sessions, id, item, []);
            && p.Ok? && p.value.returned == id
            && HandleAll(p.value.sessions, [begin, part, part, end, end])
               == Handled(sessions, [Invoked(item.onBegin, begin), Invoked(item.onPart, part),
                                     Invoked(item.onPart, part), Invoked(item.onEnd, end)])
  {
    var begin := Response(id, true, false, false);
    var part := Response(id, false, true, false);
    var end := Response(id, false, false, true);
    var s := sessions[id := item];
    assert Publish(sessions, id, item, []) == Ok(Published(s, [], id));
    PartsThenEnds(sessions, id, item);
    OpenSessionStep(s, begin, [part, part, end, end]);
    assert [begin] + [part, part, end, end] == [begin, part, part, end, end];
    assert [Invoked(item.onBegin, begin)] + [Invoked(item.onPart, part), Invoked(item.onPart, part), Invoked(item.onEnd, end)]
        == [Invoked(item.onBegin, begin), Invoked(item.onPart, part), Invoked(item.onPart, part), Invoked(item.onEnd, end)];
  }

  /** Two Parts and two Ends for a freshly registered session. */
  lemma PartsThenEnds(sessions: Sessions, id: CorrelationId, item: Item)
    requires id !in sessions
    ensures var part := Response(id, false, true, false);
            var end := Response(id, false, false, true);
            HandleAll(sessions[id := item], [part, part, end, end])
            == Handled(sessions, [Invoked(item.onPart, part), Invoked(item.onPart, part), Invoked(item.onEnd, end)])
  {
    var part := Response(id, false, true, false);
    var end := Response(id, false, false, true);
    PartThenEnds(sessions, id, item);
    OpenSessionStep(sessions[id := item], part, [part, end, end]);
    assert [part] + [part, end, end] == [part, part, end, end];
    assert [Invoked(item.onPart, part)] + [Invoked(item.onPart, part), Invoked(item.onEnd, end)]
        == [Invoked(item.onPart, part), Invoked(item.onPart, part), Invoked(item.onEnd, end)];
  }

  /** One Part and two Ends for a freshly registered session. */
  lemma PartThenEnds(sessions: Sessions, id: CorrelationId, item: Item)
    requires id !in sessions
    ensures var part := Response(id, false, true, false);
            var end := Response(id, false, false, true);
            HandleAll(sessions[id := item], [part, end, end])
            == Handled(sessions, [Invoked(item.onPart, part), Invoked(item.onEnd, end)])
  {
    var part := Response(id, false, true, false);
    var end := Response(id, false, false, true);
    ClosingTwice(sessions, id, item);
    OpenSessionStep(sessions[id := item], part, [end, end]);
    assert [part] + [end, end] == [part, end, end];
    assert [Invoked(item.onPart, part)] + [Invoked(item.onEnd, end)]
        == [Invoked(item.onPart, part), Invoked(item.onEnd, end)];
  }

  /** A Begin or Part for an open session invokes its callback and leaves
      the sessions to the responses that follow. */
  lemma OpenSessionStep(s: Sessions, r: Response, rest: seq<Response>)
    requires r.correlationId in s && (KindOf(r) == PartKind || KindOf(r) == BeginKind)
    ensures HandleAll(s, [r] + rest)
            == Handled(HandleAll(s, rest).sessions,
                       [Invoked(if KindOf(r) == PartKind then s[r.correlationId].onPart
                                else s[r.correlationId].onBegin, r)] + HandleAll(s, rest).invoked)
  {
    assert ([r] + rest)[0] == r && ([r] + rest)[1..] == rest;
  }

  /** The first End closes a freshly registered session; the second finds
      nothing to close. */
  lemma ClosingTwice(sessions: Sessions, id: CorrelationId, item: Item)
    requires id !in sessions
    ensures var end := Response(id, false, false, true);
            HandleAll(sessions[id := item], [end, end]) == Handled(sessions, [Invoked(item.onEnd, end)])
  {
    var end := Response(id, false, false, true);
    var s := sessions[id := item];
    assert s - {id} == sessions;
    assert [end][1..] == [];
    assert HandleAll(sessions, []) == Handled(sessions, []);
    assert HandleAll(sessions, [end]) == Handled(sessions, []);
    assert [end, end][1..] == [end];
    assert Handle(s, end) == Handled(sessions, [Invoked(item.onEnd, end)]);
  }

  /** When the publisher answers the request synchronously with an End, the
      session is closed before `Publish` returns, which then reports
      `EmptyId`. */
  lemma SynchronousEndReturnsEmpty(sessions: Sessions, id: CorrelationId, item: Item)
    requires id !in sessions
    ensures var end := Response(id, false, false, true);
            Publish(sessions, id, item, [end]) == Ok(Published(sessions, [Invoked(item.onEnd, end)], EmptyId))
  {
    var end := Response(id, false, false, true);
    var s := sessions[id := item];
    assert s - {id} == sessions;
    assert [end][1..] == [];
    assert HandleAll(sessions, []) == Handled(sessions, []);
    assert Handle(s, end) == Handled(sessions, [Invoked(item.onEnd, end)]);
    assert HandleAll(s, [end]) == Handled(sessions, [Invoked(item.onEnd, end)]);
  }

  /** After a cancellation responses for that id are ignored, whatever their kind. */
  lemma CancelledSessionIgnoresResponses(sessions: Sessions, id: CorrelationId, r: Response)
    requires r.correlationId == id
    ensures Handle(Cancel(sessions, id), r) == Handled(Cancel(sessions, id), [])
  {
  }

  /** No response can revive a session: ids absent before handling stay absent. */
  lemma {:induction false} HandlingNeverRegisters(sessions: Sessions, rs: seq<Response>, id: CorrelationId)
    requires id !in sessions
    ensures id !in HandleAll(sessions, rs).sessions
    ensures forall i :: 0 <= i < |HandleAll(sessions, rs).invoked| ==>
              HandleAll(sessions, rs).invoked[i].response.correlationId != id
    decreases |rs|
  {
    if rs != [] {
      var first := Handle(sessions, rs[0]);
      HandlingNeverRegisters(first.sessions, rs[1..], id);
    }
  }
}

=== FILE: stream_read_index.dfy ===
/** Range reads of one stream through the read index: forward and backward
    slices by event number, under the stream's `$maxCount` retention.

    Events of a live stream are numbered 0 (the StreamCreated event) to
    `last`, without gaps. Only the newest `maxCount` of them are visible; the
    older ones are expired but keep their numbers, so a read never renumbers
    what it returns. A record is therefore represented by its event number. */
module StreamReadIndex {
  import opened Wrappers

  /** The outcome code carried by every range read. */
  datatype RangeReadResult = Success | NoStream | StreamDeleted

  /** What the index knows about a stream when a read arrives. */
  datatype StreamState =
    | NeverCreated
    | HardDeleted
    | Live(last: nat, maxCount: Option<MaxCount>)

  /** A `$maxCount` setting keeps at least the newest event. */
  type MaxCount = n: nat | n >= 1 witness 1

  datatype ReadStreamResult = ReadStreamResult(
    result: RangeReadResult,
    records: seq<int>,
    nextEventNumber: int,
    lastEventNumber: int,
    isEndOfStream: bool)

  /** The lowest event number still visible: `last - maxCount + 1`, never
      below the first event. */
  function RetainedFloor(s: StreamState): (f: nat)
    requires s.Live?
    ensures f <= s.last + 1
    ensures s.maxCount.None? ==> f == 0
    ensures s.maxCount.Some? && s.maxCount.value > s.last ==> f == 0
    ensures s.maxCount.Some? && s.maxCount.value <= s.last ==> s.last - f + 1 == s.maxCount.value
  {
    match s.maxCount
    case None => 0
    case Some(m) => if s.last + 1 <= m then 0 else s.last + 1 - m
  }

  /** Event `n` exists and has not expired. */
  predicate Visible(s: StreamState, n: int)
    requires s.Live?
  {
    RetainedFloor(s) <= n <= s.last
  }

  /** `lo, lo+1, ..., hi` (empty when `hi < lo`). */
  function Ascending(lo: int, hi: int): (r: seq<int>)
    ensures |r| == if hi < lo then 0 else hi - lo + 1
    ensures forall i :: 0 <= i < |r| ==> r[i] == lo + i
    ensures forall n :: n in r <==> lo <= n <= hi
    decreases hi - lo
  {
    if hi < lo then [] else [lo] + Ascending(lo + 1, hi)
  }

  /** `hi, hi-1, ..., lo` (empty when `hi < lo`). */
  function Descending(hi: int, lo: int): (r: seq<int>)
    ensures |r| == if hi < lo then 0 else hi - lo + 1
    ensures forall i :: 0 <= i < |r| ==> r[i] == hi - i
    ensures forall n :: n in r <==> lo <= n <= hi
    decreases hi - lo
  {
    if hi < lo then [] else [hi] + Descending(hi - 1, lo)
  }

  lemma {:induction false} AscendingSplit(lo: int, mid: int, hi: int)
    requires lo <= mid + 1 <= hi + 1
    ensures Ascending(lo, mid) + Ascending(mid + 1, hi) == Ascending(lo, hi)
    decreases mid - lo
  {
    if lo <= mid {
      AscendingSplit(lo + 1, mid, hi);
      assert Ascending(lo, mid) == [lo] + Ascending(lo + 1, mid);
    }
  }

  lemma {:induction false} DescendingSplit(hi: int, mid: int, lo: int)
    requires lo <= mid + 1 <= hi + 1
    ensures Descending(hi, mid + 1) + Descending(mid, lo) == Descending(hi, lo)
    decreases hi - mid
  {
    if mid < hi {
      DescendingSplit(hi - 1, mid, lo);
      assert Descending(hi, mid + 1) == [hi] + Descending(hi - 1, mid + 1);
    }
  }

  predicate IsAscendingRun(r: seq<int>) {
    forall i :: 0 <= i < |r| ==> r[i] == r[0] + i
  }

  predicate IsDescendingRun(r: seq<int>) {
    forall i :: 0 <= i < |r| ==> r[i] == r[0] - i
  }

  /** The reply to a read of a stream that is absent or tombstoned. */
  function NotReadable(s: StreamState): (r: ReadStreamResult)
    requires !s.Live?
    ensures r.records == []
    ensures r.result == (if s.NeverCreated? then NoStream else StreamDeleted)
  {
    ReadStreamResult(if s.NeverCreated? then NoStream else StreamDeleted, [], -1, -1, true)
  }

  /** Reads up to `count` events of `s` starting at event number `start`,
      oldest first. A window lying wholly below the retained floor yields no
      records and points the caller at the floor; a window that reaches the
      last event reports the end of the stream. */
  function ReadForward(s: StreamState, start: nat, count: nat): (r: ReadStreamResult)
    requires count > 0
    ensures s.NeverCreated? ==> r.result == NoStream && r.records == []
    ensures s.HardDeleted? ==> r.result == StreamDeleted && r.records == []
    ensures s.Live? ==> r.result == Success && r.lastEventNumber == s.last
    ensures s.Live? ==> IsAscendingRun(r.records)
    ensures s.Live? ==> forall n :: n in r.records <==> Visible(s, n) && start <= n < start + count
    ensures s.Live? ==> (r.isEndOfStream <==> start + count > s.last)
    ensures s.Live? && |r.records| > 0 ==> r.nextEventNumber == r.records[|r.records| - 1] + 1
    ensures s.Live? && start + count <= RetainedFloor(s) ==> r.records == [] && r.nextEventNumber == RetainedFloor(s)
    ensures s.Live? && start + count > RetainedFloor(s) && !r.isEndOfStream ==> |r.records| > 0
    ensures s.Live? && r.isEndOfStream ==> r.nextEventNumber == s.last + 1
  {
    if !s.Live? then NotReadable(s)
    else
      var floor := RetainedFloor(s);
      var end := start + count - 1;
      if end < floor then
        ReadStreamResult(Success, [], floor, s.last, false)
      else
        var lo := if start < floor then floor else start;
        var hi := if end < s.last then end else s.last;
        var next := if end < s.last then end + 1 else s.last + 1;
        ReadStreamResult(Success, Ascending(lo, hi), next, s.last, end >= s.last)
  }

  /** The newest event a backward read asks for: a negative `start` means
      "from the end of the stream". */
  function BackwardFrom(s: StreamState, start: int): (e: nat)
    requires s.Live?
    ensures start < 0 ==> e == s.last
    ensures start >= 0 ==> e == start
  {
    if start < 0 then s.last else start
  }

  /** Reads up to `count` events of `s` ending at event number `start`,
      newest first. The read is at the end of the stream once its window
      reaches the retained floor, even when it returns nothing; a start past
      the last event returns nothing and points the caller at `last`. */
  function ReadBackward(s: StreamState, start: int, count: nat): (r: ReadStreamResult)
    requires count > 0
    ensures s.NeverCreated? ==> r.result == NoStream && r.records == []
    ensures s.HardDeleted? ==> r.result == StreamDeleted && r.records == []
    ensures s.Live? ==> r.result == Success && r.lastEventNumber == s.last
    ensures s.Live? ==> IsDescendingRun(r.records)
    ensures s.Live? ==> forall n :: n in r.records <==>
              Visible(s, n) && BackwardFrom(s, start) - count < n <= BackwardFrom(s, start)
    ensures s.Live? ==> (r.isEndOfStream <==> BackwardFrom(s, start) - count < RetainedFloor(s))
    ensures s.Live? ==> (r.isEndOfStream <==> r.nextEventNumber == -1)
    ensures s.Live? && !r.isEndOfStream && |r.records| > 0 ==>
              r.nextEventNumber == r.records[|r.records| - 1] - 1
    ensures s.Live? && !r.isEndOfStream && r.records == [] ==>
              BackwardFrom(s, start) > s.last && r.nextEventNumber == s.last
  {
    if !s.Live? then NotReadable(s)
    else
      var floor := RetainedFloor(s);
      var end := BackwardFrom(s, start);
      if end < floor then
        ReadStreamResult(Success, [], -1, s.last, true)
      else
        var lo := if end - count + 1 < 0 then 0 else end - count + 1;
        var eos := lo <= floor;
        var bottom := if lo < floor then floor else lo;
        var top := if end < s.last then end else s.last;
        var next := if eos then -1 else if lo - 1 < s.last then lo - 1 else s.last;
        ReadStreamResult(Success, Descending(top, bottom), next, s.last, eos)
  }

  // ---------------------------------------------------------------------
  // Paging: a reader that keeps following nextEventNumber until the end of
  // the stream sees every retained event exactly once, in order.
  // ---------------------------------------------------------------------

  /** All records collected by forward reads from `start`, each next read
      starting at the previous nextEventNumber, until the end of the stream. */
  function PageForward(s: StreamState, start: nat, count: nat): seq<int>
    requires s.Live? && count > 0
    decreases if start <= s.last then s.last + 1 - start else 0
  {
    var r := ReadForward(s, start, count);
    if r.isEndOfStream then r.records
    else r.records + PageForward(s, r.nextEventNumber, count)
  }

  /** One forward read of a live stream, in the terms the paging proof uses. */
  lemma ForwardStep(s: StreamState, start: nat, count: nat)
    requires s.Live? && count > 0
    ensures var r := ReadForward(s, start, count);
            var floor := RetainedFloor(s);
            var lo := if start < floor then floor else start;
            && (r.isEndOfStream ==> r.records == Ascending(lo, s.last))
            && (!r.isEndOfStream && start + count <= floor ==>
                  r.records == [] && r.nextEventNumber == floor)
            && (!r.isEndOfStream && start + count > floor ==>
                  r.records == Ascending(lo, start + count - 1) && r.nextEventNumber == start + count)
  {
  }

  lemma {:induction false} PageForwardCollectsRetained(s: StreamState, start: nat, count: nat)
    requires s.Live? && count > 0
    ensures PageForward(s, start, count) ==
            Ascending(if start < RetainedFloor(s) then RetainedFloor(s) else start, s.last)
    decreases if start <= s.last then s.last + 1 - start else 0
  {
    var r := ReadForward(s, start, count);
    var floor := RetainedFloor(s);
    var lo := if start < floor then floor else start;
    ForwardStep(s, start, count);
    if !r.isEndOfStream {
      var next := r.nextEventNumber;
      PageForwardCollectsRetained(s, next, count);
      if start + count > floor {
        AscendingSplit(lo, start + count - 1, s.last);
      }
    }
  }

  /** All records collected by backward reads from `start`, each next read
      starting at the previous nextEventNumber, until the end of the stream. */
  function PageBackward(s: StreamState, start: int, count: nat): seq<int>
    requires s.Live? && count > 0
    decreases BackwardFrom(s, start)
  {
    var r := ReadBackward(s, start, count);
    if r.isEndOfStream then r.records
    else r.records + PageBackward(s, r.nextEventNumber, count)
  }

  /** One backward read of a live stream, in the terms the paging proof uses. */
  lemma BackwardStep(s: StreamState, start: int, count: nat)
    requires s.Live? && count > 0
    ensures var r := ReadBackward(s, start, count);
            var floor := RetainedFloor(s);
            var from := BackwardFrom(s, start);
            var top := if from < s.last then from else s.last;
            && (r.isEndOfStream ==> r.records == Descending(top, floor))
            && (!r.isEndOfStream ==> from - count + 1 > floor)
            && (!r.isEndOfStream && from - count + 1 > s.last ==>
                  r.records == [] && r.nextEventNumber == s.last)
            && (!r.isEndOfStream && from - count + 1 <= s.last ==>
                  r.records == Descending(top, from - count + 1) && r.nextEventNumber == from - count)
  {
  }

  lemma {:induction false} PageBackwardCollectsRetained(s: StreamState, start: int, count: nat)
    requires s.Live? && count > 0
    ensures var from := BackwardFrom(s, start);
            PageBackward(s, start, count) ==
            Descending(if from < s.last then from else s.last, RetainedFloor(s))
    decreases BackwardFrom(s, start)
  {
    var r := ReadBackward(s, start, count);
    var floor := RetainedFloor(s);
    var from := BackwardFrom(s, start);
    var top := if from < s.last then from else s.last;
    BackwardStep(s, start, count);
    if !r.isEndOfStream {
      var next := r.nextEventNumber;
      assert PageBackward(s, start, count) == r.records + PageBackward(s, next, count);
      PageBackwardCollectsRetained(s, next, count);
      if from - count + 1 <= s.last {
        assert PageBackward(s, next, count) == Descending(next, floor);
        DescendingSplit(top, next, floor);
      } else {
        assert PageBackward(s, next, count) == Descending(s.last, floor);
      }
    }
  }

  // ---------------------------------------------------------------------
  // The fixture: stream "ES" created with `$maxCount` 3, events 0..5.
  // ---------------------------------------------------------------------

  const ES: StreamState := Live(5, Some(3))

  /** Every read of the fixture succeeds and reports event 5 as the last. */
  lemma FixtureAlwaysReportsLast(start: nat, from: int, count: nat)
    requires count > 0
    ensures ReadForward(ES, start, count).result == Success
    ensures ReadForward(ES, start, count).lastEventNumber == 5
    ensures ReadBackward(ES, from, count).result == Success
    ensures ReadBackward(ES, from, count).lastEventNumber == 5
  {
  }

  /** The six forward reads of the fixture, from below the retained range,
      into it, through its end and past it. */
  lemma ForwardScenarios()
    ensures ReadForward(ES, 0, 2) == ReadStreamResult(Success, [], 3, 5, false)
    ensures ReadForward(ES, 0, 5) == ReadStreamResult(Success, [3, 4], 5, 5, false)
    ensures ReadForward(ES, 2, 2) == ReadStreamResult(Success, [3], 4, 5, false)
    ensures ReadForward(ES, 2, 4) == ReadStreamResult(Success, [3, 4, 5], 6, 5, true)
    ensures ReadForward(ES, 2, 6) == ReadStreamResult(Success, [3, 4, 5], 6, 5, true)
    ensures ReadForward(ES, 7, 2) == ReadStreamResult(Success, [], 6, 5, true)
  {
  }

  /** The six backward reads of the fixture, from its last event, inside
      the retained range, below it and from past the end. */
  lemma BackwardScenarios()
    ensures ReadBackward(ES, 5, 2) == ReadStreamResult(Success, [5, 4], 3, 5, false)
    ensures ReadBackward(ES, 5, 3) == ReadStreamResult(Success, [5, 4, 3], -1, 5, true)
    ensures ReadBackward(ES, 4, 3) == ReadStreamResult(Success, [4, 3], -1, 5, true)
    ensures ReadBackward(ES, 2, 2) == ReadStreamResult(Success, [], -1, 5, true)
    ensures ReadBackward(ES, 2, 5) == ReadStreamResult(Success, [], -1, 5, true)
    ensures ReadBackward(ES, 10, 3) == ReadStreamResult(Success, [], 5, 5, false)
  {
  }

  /** A hard-deleted stream answers StreamDeleted to every read. */
  lemma DeletedStreamReadsNothing(start: nat, from: int, count: nat)
    requires count > 0
    ensures ReadForward(HardDeleted, start, count).result == StreamDeleted
    ensures ReadBackward(HardDeleted, from, count).result == StreamDeleted
    ensures ReadForward(HardDeleted, start, count).records == []
    ensures ReadBackward(HardDeleted, from, count).records == []
  {
  }
}

=== FILE: tf_chunk.dfy ===
/** One chunk of the transaction file: an append-only segment that receives
    framed log records, can be flushed, completed (sealed with a footer that
    records its data size and a content hash), reopened from its file with
    or without hash verification, and cached in or evicted from memory.

    Positions are local to the chunk and exclude the header: the first
    record starts at position 0. Each record occupies its serialized body
    plus a 4-byte length prefix and a 4-byte length suffix. */
module TfChunk {
  import opened Wrappers

  /** A log record as the chunk stores it: the log position it was created
      with and its serialized body. */
  datatype LogRecord = LogRecord(logPosition: int, serialized: seq<bv8>)

  /** Size of each of the two length fields that frame a record. */
  const LengthFieldSize: nat := 4

  /** The space a record takes in the chunk, length prefix and suffix included. */
  function FrameSize(r: LogRecord): nat {
    |r.serialized| + 2 * LengthFieldSize
  }

  /** A record together with the local position it was written at. */
  datatype Entry = Entry(position: nat, record: LogRecord)

  datatype Header = Header(chunkSize: nat, chunkNumber: nat, chunkStartNumber: nat)

  datatype Footer = Footer(dataSize: nat, hash: int)

  /** The in-process state of a chunk. `flushedPosition` is how far the data
      is durable; a footer is present exactly when the chunk is completed;
      `cache` holds the in-memory copy of the data while the chunk is cached. */
  datatype Chunk = Chunk(
    header: Header,
    entries: seq<Entry>,
    writerPosition: nat,
    flushedPosition: nat,
    footer: Option<Footer>,
    cache: Option<seq<Entry>>)
  {
    predicate IsReadOnly() { footer.Some? }
    predicate IsCached() { cache.Some? }
  }

  /** What a completed chunk leaves on disk. */
  datatype ChunkFile = ChunkFile(header: Header, entries: seq<Entry>, footer: Option<Footer>)

  datatype RecordWriteResult = RecordWriteResult(success: bool, oldPosition: nat, newPosition: nat)

  datatype RecordReadResult = RecordReadResult(success: bool, nextPosition: int, record: Option<LogRecord>)

  datatype ChunkError = ChunkSealed | NotCompleted | HashMismatch

  datatype Appended = Appended(chunk: Chunk, result: RecordWriteResult)

  /** The position just past the last entry. */
  function EndOf(entries: seq<Entry>): nat {
    if entries == [] then 0
    else entries[|entries| - 1].position + FrameSize(entries[|entries| - 1].record)
  }

  /** Entries are laid end to end from position 0. */
  predicate Contiguous(entries: seq<Entry>) {
    forall i :: 0 <= i < |entries| ==> entries[i].position == EndOf(entries[..i])
  }

  predicate Valid(c: Chunk) {
    && Contiguous(c.entries)
    && c.writerPosition == EndOf(c.entries)
    && c.writerPosition <= c.header.chunkSize
    && c.flushedPosition <= c.writerPosition
    && (c.footer.Some? ==> c.footer.value.dataSize == c.writerPosition && c.flushedPosition == c.writerPosition)
    && (c.cache.Some? ==> c.cache.value == c.entries)
  }

  /** The first entry written at position `p`, if any. */
  function Find(entries: seq<Entry>, p: int): (r: Option<Entry>)
    ensures r.Some? ==> r.value in entries && r.value.position == p
    ensures r.None? ==> forall e :: e in entries ==> e.position != p
  {
    if entries == [] then None
    else if entries[0].position == p then Some(entries[0])
    else Find(entries[1..], p)
  }

  /** Every entry of a contiguous sequence starts before its end. */
  lemma {:induction false} EntriesBeforeEnd(entries: seq<Entry>)
    requires Contiguous(entries)
    ensures forall e :: e in entries ==> e.position < EndOf(entries)
    decreases |entries|
  {
    if entries != [] {
      var init := entries[..|entries| - 1];
      assert Contiguous(init) by {
        forall i | 0 <= i < |init|
          ensures init[i].position == EndOf(init[..i])
        {
          assert init[..i] == entries[..i];
        }
      }
      EntriesBeforeEnd(init);
      assert entries == init + [entries[|entries| - 1]];
    }
  }

  lemma {:induction false} FindAfterAppend(entries: seq<Entry>, e: Entry, p: int)
    requires forall x :: x in entries ==> x.position < e.position
    ensures p == e.position ==> Find(entries + [e], p) == Some(e)
    ensures p != e.position ==> Find(entries + [e], p) == Find(entries, p)
    decreases |entries|
  {
    if entries != [] {
      assert (entries + [e])[1..] == entries[1..] + [e];
      FindAfterAppend(entries[1..], e, p);
    } else {
      assert [e][1..] == [];
    }
  }

  /** A freshly created chunk: empty, writable, not cached. */
  function CreateNew(chunkSize: nat, chunkNumber: nat, chunkStartNumber: nat): (c: Chunk)
    ensures Valid(c)
    ensures c.writerPosition == 0 && !c.IsReadOnly() && !c.IsCached()
    ensures c.header.chunkSize == chunkSize
  {
    Chunk(Header(chunkSize, chunkNumber, chunkStartNumber), [], 0, 0, None, None)
  }

  /** Decodes the record starting at local position `p`. Reads go to the
      in-memory copy when the chunk is cached and to the file otherwise;
      positions at or past the data end (the writer position, or the
      footer's data size once completed) and positions where no record
      starts fail. */
  function TryReadAt(c: Chunk, p: int): (r: RecordReadResult)
    requires Valid(c)
    ensures r.success <==> exists e :: e in c.entries && e.position == p
    ensures r.success ==> r.record.Some? && Entry(p, r.record.value) in c.entries
                          && r.nextPosition == p + FrameSize(r.record.value)
    ensures !r.success ==> r.record.None?
  {
    var data := if c.cache.Some? then c.cache.value else c.entries;
    var bound := if c.footer.Some? then c.footer.value.dataSize else c.writerPosition;
    EntriesBeforeEnd(c.entries);
    if p < 0 || p >= bound then RecordReadResult(false, -1, None)
    else match Find(data, p)
      case None => RecordReadResult(false, -1, None)
      case Some(e) => RecordReadResult(true, p + FrameSize(e.record), Some(e.record))
  }

  /** Appends `rec` at the writer position. A completed chunk refuses with
      ChunkSealed; a record that does not fit in the remaining space is
      refused with success = false and the chunk unchanged. Appending never
      flushes. */
  function TryAppend(c: Chunk, rec: LogRecord): (r: Result<Appended, ChunkError>)
    requires Valid(c)
    ensures r.Err? <==> c.IsReadOnly()
    ensures r.Err? ==> r.error == ChunkSealed
    ensures r.Ok? ==> Valid(r.value.chunk)
    ensures r.Ok? ==> (r.value.result.success <==> c.writerPosition + FrameSize(rec) <= c.header.chunkSize)
    ensures r.Ok? ==> r.value.result.oldPosition == c.writerPosition
    ensures r.Ok? && r.value.result.success ==>
              && r.value.result.newPosition == r.value.result.oldPosition + FrameSize(rec)
              && r.value.chunk.writerPosition == r.value.result.newPosition
              && r.value.chunk.flushedPosition == c.flushedPosition
              && r.value.chunk.IsCached() == c.IsCached()
    ensures r.Ok? && r.value.result.success ==>
              && r.value.chunk.header == c.header && r.value.chunk.footer == c.footer
              && r.value.chunk.entries == c.entries + [Entry(c.writerPosition, rec)]
    ensures r.Ok? && !r.value.result.success ==>
              r.value.result.newPosition == r.value.result.oldPosition && r.value.chunk == c
  {
    if c.footer.Some? then Err(ChunkSealed)
    else
      var oldPos := c.writerPosition;
      if oldPos + FrameSize(rec) > c.header.chunkSize then
        Ok(Appended(c, RecordWriteResult(false, oldPos, oldPos)))
      else
        var e := Entry(oldPos, rec);
        var entries := c.entries + [e];
        assert Contiguous(entries) by {
          forall i | 0 <= i < |entries|
            ensures entries[i].position == EndOf(entries[..i])
          {
            if i < |c.entries| {
              assert entries[..i] == c.entries[..i];
            } else {
              assert entries[..i] == c.entries;
            }
          }
        }
        var c' := c.(entries := entries,
                     writerPosition := oldPos + FrameSize(rec),
                     cache := if c.cache.Some? then Some(entries) else None);
        Ok(Appended(c', RecordWriteResult(true, oldPos, oldPos + FrameSize(rec))))
  }

  /** A successful append makes the record readable at the position it
      returned, and leaves every read at an earlier position unchanged. */
  lemma AppendThenRead(c: Chunk, rec: LogRecord)
    requires Valid(c) && !c.IsReadOnly()
    requires c.writerPosition + FrameSize(rec) <= c.header.chunkSize
    ensures var r := TryAppend(c, rec);
            && r.Ok? && r.value.result.success
            && TryReadAt(r.value.chunk, r.value.result.oldPosition)
               == RecordReadResult(true, r.value.result.newPosition, Some(rec))
            && forall p :: p < c.writerPosition ==> TryReadAt(r.value.chunk, p) == TryReadAt(c, p)
  {
    var r := TryAppend(c, rec);
    var e := Entry(c.writerPosition, rec);
    assert r.value.chunk.entries == c.entries + [e];
    EntriesBeforeEnd(c.entries);
    ReadAppended(r.value.chunk, c.entries, e);
    forall p | p < c.writerPosition
      ensures TryReadAt(r.value.chunk, p) == TryReadAt(c, p)
    {
      EarlierReadUnchanged(c, r.value.chunk, e, p);
    }
  }

  lemma ReadAppended(c': Chunk, entries: seq<Entry>, e: Entry)
    requires Valid(c') && c'.footer.None? && c'.entries == entries + [e]
    requires forall x :: x in entries ==> x.position < e.position
    ensures TryReadAt(c', e.position) == RecordReadResult(true, e.position + FrameSize(e.record), Some(e.record))
  {
    FindAfterAppend(entries, e, e.position);
    assert e in c'.entries;
  }

  lemma EarlierReadUnchanged(c: Chunk, c': Chunk, e: Entry, p: int)
    requires Valid(c) && Valid(c') && c.footer.None? && c'.footer.None?
    requires c'.entries == c.entries + [e]
    requires forall x :: x in c.entries ==> x.position < e.position
    requires p < c.writerPosition && c.writerPosition <= c'.writerPosition
    ensures TryReadAt(c', p) == TryReadAt(c, p)
  {
    FindAfterAppend(c.entries, e, p);
  }

  /** Makes every appended byte durable. */
  function Flush(c: Chunk): (c': Chunk)
    requires Valid(c)
    ensures Valid(c')
    ensures c'.flushedPosition == c.writerPosition
    ensures c'.writerPosition == c.writerPosition && c'.entries == c.entries
    ensures c'.IsReadOnly() == c.IsReadOnly() && c'.IsCached() == c.IsCached()
    ensures c'.header == c.header && c'.footer == c.footer && c'.cache == c.cache
  {
    c.(flushedPosition := c.writerPosition)
  }

  /** Whether the chunk has been flushed has no bearing on what an append
      reports. */
  lemma AppendIgnoresFlush(c: Chunk, rec: LogRecord)
    requires Valid(c)
    ensures TryAppend(Flush(c), rec).Ok? == TryAppend(c, rec).Ok?
    ensures TryAppend(c, rec).Ok? ==> TryAppend(Flush(c), rec).value.result == TryAppend(c, rec).value.result
  {
  }

  /** Seals a writable chunk: records the data size and the content hash in
      a footer and flushes. A completed chunk cannot be completed again. */
  function Complete(c: Chunk, hash: seq<Entry> -> int): (r: Result<Chunk, ChunkError>)
    requires Valid(c)
    ensures r.Err? <==> c.IsReadOnly()
    ensures r.Ok? ==> Valid(r.value) && r.value.IsReadOnly()
    ensures r.Ok? ==> r.value.footer == Some(Footer(c.writerPosition, hash(c.entries)))
    ensures r.Ok? ==> r.value.flushedPosition == c.writerPosition && r.value.entries == c.entries
    ensures r.Ok? ==> forall p :: TryReadAt(r.value, p) == TryReadAt(c, p)
    ensures r.Ok? ==> r.value.header == c.header && r.value.cache.Some? == c.cache.Some?
    ensures r.Ok? ==> r.value.writerPosition == c.writerPosition
  {
    if c.footer.Some? then Err(ChunkSealed)
    else Ok(c.(footer := Some(Footer(c.writerPosition, hash(c.entries))), flushedPosition := c.writerPosition))
  }

  /** The durable prefix of the entries: those that end at or before `flushed`. */
  function Durable(entries: seq<Entry>, flushed: nat): (r: seq<Entry>)
    ensures |r| <= |entries| && r == entries[..|r|]
    ensures EndOf(entries) <= flushed ==> r == entries
  {
    if entries == [] || EndOf(entries) <= flushed then entries
    else Durable(entries[..|entries| - 1], flushed)
  }

  /** The chunk's file as it stands on disk. */
  function FileImage(c: Chunk): (f: ChunkFile)
    requires Valid(c)
    ensures c.IsReadOnly() ==> f.entries == c.entries && f.footer == c.footer
  {
    ChunkFile(c.header, Durable(c.entries, c.flushedPosition), c.footer)
  }

  /** Opens a completed chunk file. With `verifyHash` the content hash is
      recomputed over the data and must equal the footer's. The reopened
      chunk is read-only and not cached. */
  function FromCompletedFile(f: ChunkFile, verifyHash: bool, hash: seq<Entry> -> int): (r: Result<Chunk, ChunkError>)
    ensures f.footer.None? ==> r == Err(NotCompleted)
    ensures f.footer.Some? && verifyHash && hash(f.entries) != f.footer.value.hash ==> r == Err(HashMismatch)
    ensures r.Ok? ==> r.value.IsReadOnly() && !r.value.IsCached() && r.value.entries == f.entries
    ensures r.Ok? ==> r.value.footer == f.footer && r.value.header == f.header
    ensures f.footer.Some? && (!verifyHash || hash(f.entries) == f.footer.value.hash) ==> r.Ok?
  {
    match f.footer
    case None => Err(NotCompleted)
    case Some(footer) =>
      if verifyHash && hash(f.entries) != footer.hash then Err(HashMismatch)
      else Ok(Chunk(f.header, f.entries, footer.dataSize, footer.dataSize, f.footer, None))
  }

  /** Completing a chunk and reopening its file with hash verification
      succeeds, and the reopened chunk reads exactly what the writer read. */
  lemma CompleteThenReopen(c: Chunk, hash: seq<Entry> -> int)
    requires Valid(c) && !c.IsReadOnly()
    ensures var done := Complete(c, hash);
            && done.Ok?
            && var reopened := FromCompletedFile(FileImage(done.value), true, hash);
            && reopened.Ok? && Valid(reopened.value) && !reopened.value.IsCached()
            && forall p :: TryReadAt(reopened.value, p) == TryReadAt(c, p)
  {
    var done := Complete(c, hash).value;
    var reopened := FromCompletedFile(FileImage(done), true, hash).value;
    assert reopened.entries == c.entries;
  }

  /** Mirrors the chunk's data into memory. */
  function CacheInMemory(c: Chunk): (c': Chunk)
    requires Valid(c)
    ensures Valid(c') && c'.IsCached()
    ensures forall p :: TryReadAt(c', p) == TryReadAt(c, p)
    ensures c'.header == c.header && c'.footer == c.footer && c'.entries == c.entries
    ensures c'.writerPosition == c.writerPosition && c'.flushedPosition == c.flushedPosition
  {
    c.(cache := Some(c.entries))
  }

  /** Drops the in-memory copy; reads go back to the file. */
  function UnCacheFromMemory(c: Chunk): (c': Chunk)
    requires Valid(c)
    ensures Valid(c') && !c'.IsCached()
    ensures forall p :: TryReadAt(c', p) == TryReadAt(c, p)
    ensures c'.header == c.header && c'.footer == c.footer && c'.entries == c.entries
    ensures c'.writerPosition == c.writerPosition && c'.flushedPosition == c.flushedPosition
  {
    c.(cache := None)
  }

  // ---------------------------------------------------------------------
  // The two chunk scenarios.
  // ---------------------------------------------------------------------

  /** One record appended to a fresh 4096-byte chunk, without flushing,
      lands at position 0 and ends at its framed size. */
  lemma AppendToFreshChunkWithoutFlush(rec: LogRecord)
    requires FrameSize(rec) <= 4096
    ensures var r := TryAppend(CreateNew(4096, 0, 0), rec);
            r.Ok? && r.value.result == RecordWriteResult(true, 0, FrameSize(rec))
            && r.value.chunk.flushedPosition == 0
  {
  }

  /** append, flush, complete, reopen with hash verification, cache, uncache:
      the chunk ends up not cached and the record reads back at position 0,
      carrying the log position the append reported. */
  lemma UncachingScenario(rec: LogRecord, hash: seq<Entry> -> int)
    requires FrameSize(rec) <= 4096 && rec.logPosition == 0
    ensures var appended := TryAppend(CreateNew(4096, 0, 0), rec);
            && appended.Ok? && appended.value.result == RecordWriteResult(true, 0, FrameSize(rec))
            && var done := Complete(Flush(appended.value.chunk), hash);
            && done.Ok?
            && var reopened := FromCompletedFile(FileImage(done.value), true, hash);
            && reopened.Ok?
            && var chunk := UnCacheFromMemory(CacheInMemory(reopened.value));
            && !chunk.IsCached()
            && var read := TryReadAt(chunk, 0);
            && read.success && read.record == Some(rec)
            && read.record.value.logPosition == appended.value.result.oldPosition
  {
    var c0 := CreateNew(4096, 0, 0);
    AppendThenRead(c0, rec);
    var appended := TryAppend(c0, rec);
    var c1 := appended.value.chunk;
    assert TryReadAt(c1, 0).record == Some(rec);
    var c2 := Flush(c1);
    assert TryReadAt(c2, 0) == TryReadAt(c1, 0);
    CompleteThenReopen(c2, hash);
    var done := Complete(c2, hash);
    var reopened := FromCompletedFile(FileImage(done.value), true, hash);
    assert TryReadAt(reopened.value, 0) == TryReadAt(c2, 0);
    var cached := CacheInMemory(reopened.value);
    var chunk := UnCacheFromMemory(cached);
    assert TryReadAt(chunk, 0) == TryReadAt(cached, 0) == TryReadAt(reopened.value, 0);
  }
}

=== FILE: wrappers.dfy ===
/** Failure-compatible result types shared by every module of the model. */
module Wrappers {

  /** A value that may be absent (the source's `null`). */
  datatype Option<+T> = None | Some(value: T)

  /** The outcome of an operation that the source either completes or aborts
      with an exception; `E` names the exception. */
  datatype Result<+R, +E> = Ok(value: R) | Err(error: E) {
    predicate IsFailure() { Err? }

    function PropagateFailure<U>(): Result<U, E>
      requires Err?
    {
      Err(error)
    }

    function Extract(): R
      requires Ok?
    {
      value
    }
  }
}
